=== FILE: README.md ===
# Photo contest rules, modelled in Dafny

This project models the server-side rules of a small multi-role photo contest
web application. Contestants (role `USER`) each upload one photo. Judges cast a
single vote and may retract it. Administrators set the contest phase
(REGISTRATION, JUDGING, RESULTS) and see a top-three podium once results are
published. The model also covers the password-reset token lifecycle, the seed
script, the `getIP` helper and the checks the dashboards make before calling
the routes.

The database, the blob store, the session provider, the mail service, the clock
and the rate limiter all become parts of one immutable `Store` value or inputs
to the operations. Each HTTP route is a pure function from the store, the
caller's session and the request to a new store, a response and the list of
external calls it made (`Outcome`).

The store invariant (`ContestStore.Valid`) has six parts:
- every photo's `voteCount` equals the number of votes that reference it;
- a judge holds at most one vote;
- a contestant owns at most one photo;
- photo ids are distinct;
- every vote references an existing photo;
- every account is stored under its own email.

Each modelled route is proved to preserve it. The admin routes that delete users or photos directly are outside the model.

Modules follow the source:
- `ContestStore`: the store, the responses and the invariant.
- `VoteRoutes`: `src/app/api/votes/route.ts`.
- `PhotoRoutes`: `src/app/api/photos/route.ts`.
- `SettingsRoute`: `src/app/api/admin/settings/route.ts`.
- `ResultsView`: the admin page and the dashboard's results.
- `PasswordReset`: the forgot-password and reset-password routes.
- `Seed`: `prisma/seed.ts`.
- `RateLimit`: `src/lib/rate-limit.ts`.
- `FileRules`, `Text`: file checks, title derivation, `trim` and lower-casing.
- `Dashboards`: the user and contestant dashboards' guards.
- `Seqs`, `Wrappers`: generic helpers.

Assumptions about the Prisma schema, which this model does not fix:
- A new photo's `voteCount` starts at 0.
- Deleting a photo either cascades to its votes or is refused while votes
  reference it. This is the `PhotoRoutes.VoteLink` parameter; both cases are
  proved.
- The database's ids, upload times and the column defaults of a settings row
  created by the admin route are parameters.
- `findFirst` without `orderBy` scans rows in storage order.
- `orderBy ... desc` keeps storage order among equal keys. The sort used for it (`ResultsView.SortDesc`) is stable, but its contracts state only a descending permutation, and no lemma relies on the order among equal keys.

Notable behaviour of the code, which the model follows:
- Uploads require role `USER`; a `CONTESTANT` session gets 401. The contestant dashboard is served only to `CONTESTANT` sessions, so every upload it sends is refused.
- The delete phase gate binds only `CONTESTANT`.
- A missing settings row blocks neither uploads nor votes.
- A failed blob delete yields 500 and keeps the row.
- An admin delete removes the first photo found. It takes no photo id.

## Model

| member | source | states |
|---|---|---|
| Seqs.FindFirst | src/app/api/votes/route.ts:26-28 | `findFirst` yields the first row in storage order that matches, or none when no row matches |
| ContestStore.WithoutVotesFor | src/app/api/photos/route.ts:117-119 | a cascading photo delete keeps exactly the votes that do not reference the photo |
| ContestStore.CountAppend | src/app/api/votes/route.ts:38-49 | inserting a vote raises the count of exactly the photo it references, by one |
| ContestStore.CountRemoveAt | src/app/api/votes/route.ts:90-98 | deleting one vote lowers the count of exactly the photo it referenced, by one |
| ContestStore.CountWithout | src/app/api/photos/route.ts:117-119 | after a cascading delete the deleted photo has no votes and every other photo's count is unchanged |
| ContestStore.WithoutKeepsOneVotePerJudge | src/app/api/photos/route.ts:117-119 | a cascading delete never leaves a judge with two votes |
| ContestStore.CountPositiveWhenReferenced | src/app/api/votes/route.ts:95-98 | the photo a vote references has a count of at least one |
| ContestStore.AdjustCount | src/app/api/votes/route.ts:46-49 | the counter update changes the `voteCount` of exactly the rows with the given id, by the given amount, and leaves every other row and the order alone |
| ContestStore.PhaseAllows | src/app/api/votes/route.ts:16 | the routes' phase gate: with no settings row every phase passes; with a row only its own phase passes |
| VoteRoutes.JudgeVote | src/app/api/votes/route.ts:79-88 | the judge's vote is the first one with their id, and there is none exactly when the judge has not voted |
| VoteRoutes.CastVote | src/app/api/votes/route.ts:6-59 | checks run in order: 401 unless role JUDGE, 400 when a settings row exists outside JUDGING, 500 for an unreadable body, 400 when the judge already voted, 500 (nothing written) when the photo id is missing or unknown; only success changes the store: it appends the vote and raises only that photo's count by one |
| VoteRoutes.RetractVote | src/app/api/votes/route.ts:62-108 | same role and phase gates, 400 when the judge has no vote, success removes exactly that vote and lowers only its photo's count by one; every failure leaves the store unchanged |
| VoteRoutes.CastPreservesValid | src/app/api/votes/route.ts:38-50 | casting keeps counts equal to referencing votes, one vote per judge and votes pointing at existing photos |
| VoteRoutes.RetractSucceedsWhenValid | src/app/api/votes/route.ts:79-99 | while the invariant holds, a judge with a vote in an open phase always retracts it successfully |
| VoteRoutes.RetractPreservesValid | src/app/api/votes/route.ts:90-99 | retracting keeps the store invariant |
| VoteRoutes.RetractKeepsCountsNonNegative | src/app/api/votes/route.ts:95-98 | while the invariant holds, the counter a retract decrements is at least one, and no counter is negative afterwards |
| VoteRoutes.CastThenRetractRestores | src/app/api/votes/route.ts:38-99 | a successful cast followed by the same judge's retract restores the votes and counts exactly |
| VoteRoutes.NoSecondVote | src/app/api/votes/route.ts:26-35 | after a successful cast, any further cast by that judge is refused with 400, whatever photo it names |
| PhotoRoutes.BlobPath | src/app/api/photos/route.ts:62 | the blob path is `photos/`, the caller's id, `/`, then the file name |
| PhotoRoutes.FormTitle | src/app/api/photos/route.ts:38 | a non-empty title is used, otherwise the file name, and evaluation fails when both are missing |
| PhotoRoutes.Upload | src/app/api/photos/route.ts:9-83 | checks run in order: 401 unless role USER, 400 when a settings row exists outside REGISTRATION, 400 when the caller owns a photo, then file present, size ≤ 10485760, type among three images; once all pass, the blob `put` is asked for `photos/<id>/<name>` and a failed `put` gives 500; 201 exactly when all pass and the blob store stores it, adding one photo (count 0, owner the caller, blob key the returned pathname) and the pathname; no `put` happens unless every check passed; every failure leaves the store unchanged |
| PhotoRoutes.DeleteTarget | src/app/api/photos/route.ts:101-105 | an admin targets the first photo of anyone, everyone else only their own |
| PhotoRoutes.DeletePhoto | src/app/api/photos/route.ts:85-129 | 401 without session; 400 only for a CONTESTANT outside REGISTRATION; 404 when no photo is in scope; the blob delete comes first, and its failure gives 500 with the store untouched; when the schema restricts deletes, a photo with votes gives 500 after its blob is gone, with rows unchanged; success removes exactly the target row, its votes and its blob key |
| PhotoRoutes.UploadPreservesValid | src/app/api/photos/route.ts:25-73 | an upload keeps one photo per contestant, distinct ids and the count invariant |
| PhotoRoutes.DeletePreservesValid | src/app/api/photos/route.ts:101-119 | a photo delete keeps the store invariant under either schema behaviour for votes |
| PhotoRoutes.UploadThenDeleteRestores | src/app/api/photos/route.ts:62-119 | uploading and then deleting one's own photo gives back the original store |
| PhotoRoutes.UserDeletesWhileJudging | src/app/api/photos/route.ts:94-99 | the phase gate on delete binds CONTESTANT but not USER, the role that uploads |
| FileRules.CheckFile | src/app/api/photos/route.ts:47-59 | too large exactly when size > 10485760 (10485760 itself passes), then wrong type exactly when not jpeg, png or webp |
| FileRules.StripExtension | src/components/user-dashboard.tsx:50 | the title is the name cut at the one place `/\.[^/.]+$/` matches, or the whole name when it does not match |
| FileRules.StripExtensionShape | src/components/contestant-dashboard.tsx:45 | the expression matches at most once, and stripping removes a dot and at least one more character |
| FileRules.StripExtensionExamples | src/components/user-dashboard.tsx:50-51 | "a.tar.gz" gives "a.tar"; "noext", "x." and "dir.v2/readme" are unchanged |
| SettingsRoute.ParsePhase | src/app/api/admin/settings/route.ts:39-40 | a phase name is accepted exactly when it is one of the three names |
| SettingsRoute.PhaseNamesRoundTrip | src/app/api/admin/settings/route.ts:39-45 | parsing and naming phases are inverse |
| SettingsRoute.GetSettings | src/app/api/admin/settings/route.ts:7-25 | 401 unless ADMIN, otherwise the stored row (possibly none); the store is never changed |
| SettingsRoute.SetPhase | src/app/api/admin/settings/route.ts:28-69 | 401 unless ADMIN, 500 for an unreadable body, 400 for any other phase value, each with no change; success stores the requested phase, updating only the phase of an existing row or creating one row, and changes nothing else |
| SettingsRoute.AnyPhaseReachable | src/app/api/admin/settings/route.ts:39-59 | any phase can be set from any store, and afterwards the phase gates admit exactly that phase |
| SettingsRoute.SetPhaseIdempotent | src/app/api/admin/settings/route.ts:47-61 | repeating a request leaves the store as the first one left it |
| SettingsRoute.SetPhasePreservesValid | src/app/api/admin/settings/route.ts:47-59 | setting the phase keeps the store invariant |
| ResultsView.SortDesc | src/app/admin/page.tsx:22-33 | the ordered list is a permutation of the input, descending by the key |
| ResultsView.Podium | src/app/admin/page.tsx:39-42 | the podium has min(3, n) entries; entry i is the list's i-th element at position i + 1 |
| ResultsView.AdminPage | src/app/admin/page.tsx:7-43 | non-admins are redirected; admins get all photos by votes descending, and results exist exactly in the RESULTS phase |
| ResultsView.AdminPodiumIsTopVoted | src/app/admin/page.tsx:32-42 | every podium photo is a stored photo with at least as many votes as every photo below the podium |
| ResultsView.PodiumOfSortedIsTop | src/app/admin/page.tsx:39 | on a descending list, the podium beats every later element |
| ResultsView.PublicPhase | src/app/api/settings/route.ts:8-9 | the dashboard sees the stored phase, or REGISTRATION when there is no row |
| ResultsView.RecentFirst | src/app/api/photos/all/route.ts:16-23 | the dashboard's list is all photos, newest upload first |
| ResultsView.DashboardResults | src/app/dashboard/page.tsx:42-48 | results exist only for an admin in the RESULTS phase and are the podium of the newest-first list |
| ResultsView.DashboardPodiumIgnoresVotes | src/app/dashboard/page.tsx:44 | a newer photo with 0 votes takes position 1 over an older one with 5 |
| ResultsView.RankedDashboardResults | src/app/dashboard/page.tsx:42-48 | the corrected dashboard results exist under the same conditions |
| ResultsView.RankedDashboardIsTopVoted | src/app/dashboard/page.tsx:44-47 | the corrected podium is the head of a vote-descending permutation of the photos |
| Text.Trim | src/components/user-dashboard.tsx:56 | the trimmed title is a slice of the title with only JavaScript white space before and after it, and it neither starts nor ends with white space; it is empty exactly when the title is all white space |
| Text.TrimIdempotent | src/components/user-dashboard.tsx:68 | trimming an already trimmed title changes nothing |
| Text.ToLowerAscii | src/app/api/forgot-password/route.ts:31 | the lookup key has the same length, each letter lowered, and no upper-case ASCII left |
| RateLimit.GetIP | src/lib/rate-limit.ts:25-29 | absent or empty header gives 127.0.0.1; otherwise the header's prefix up to (not including) the first comma; never a comma |
| RateLimit.GetIPVerbatim | src/lib/rate-limit.ts:27 | a header with no comma comes back unchanged, spaces included |
| RateLimit.GetIPExamples | src/lib/rate-limit.ts:26-27 | "a,b" gives "a", " c" keeps its space, ",x" gives "" |
| PasswordReset.ForgotPassword | src/app/api/forgot-password/route.ts:7-82 | 429 before anything else; 400 for a missing email or one without '@'; an unknown lower-cased email gets the neutral 200 with no change; a known one stores exactly one new token for the account's email expiring at now + 3600000, keeps the other tokens, mails the link, and on mail failure answers 200 with the link |
| PasswordReset.ResetLink | src/app/api/forgot-password/route.ts:56 | the link is the base URL, then `/reset-password?token=`, then the token |
| PasswordReset.ManualLinkResetsAccount | src/app/api/forgot-password/route.ts:59-68 | when mail fails, a request for a known address gets back the reset link, and that link's token resets the account's password |
| PasswordReset.ForgotEnumeratesWhenMailFails | src/app/api/forgot-password/route.ts:35-68 | when mail fails, known and unknown addresses get different replies |
| PasswordReset.ForgotPasswordNoLink | src/app/api/forgot-password/route.ts:59-74 | the corrected route makes the same store change, mail call and status, and every 200 reply is the neutral acknowledgement |
| PasswordReset.NoLinkRevealsNothing | src/app/api/forgot-password/route.ts:34-74 | the corrected route gives known and unknown addresses the same neutral reply, whether or not mail went out |
| PasswordReset.ForgotDoesNotEnumerate | src/app/api/forgot-password/route.ts:35-74 | when mail works, known and unknown emails get the same response |
| PasswordReset.ResetPassword | src/app/api/reset-password/route.ts:5-84 | 500 for an unreadable body; 400 for missing fields, for a password under 6 characters, for an unknown token (no change) and for an expired one (now > expiresAt; token deleted); 400 with token kept when no user has the email; 200 exactly when the token is present, unexpired (now ≤ expiresAt) and its email has an account and the password has at least 6 characters; success only sets that user's hash and deletes the token |
| PasswordReset.TokenSingleUse | src/app/api/reset-password/route.ts:68-71 | replaying a successful reset fails with 400 at any later time |
| PasswordReset.ForgotThenReset | src/app/api/forgot-password/route.ts:43-53 | a token issued for a known account resets its password up to and including the expiry instant, then is gone |
| PasswordReset.ExpiredTokenRemoved | src/app/api/reset-password/route.ts:36-45 | one millisecond after expiry the token is rejected and deleted |
| PasswordReset.ResetRoutesPreserveValid | src/app/api/reset-password/route.ts:60-71 | neither route breaks the store invariant |
| Seed.EnvOr | prisma/seed.ts:8-9 | an unset or empty variable falls back to the default |
| Seed.RunSeed | prisma/seed.ts:6-49 | the admin account is created only when its email is absent, the settings row (REGISTRATION, 10485760, the three types) only when there is none, and nothing else changes |
| Seed.SeedIdempotent | prisma/seed.ts:11-47 | seeding twice equals seeding once |
| Seed.SeedDefaults | prisma/seed.ts:8-43 | with no variables, the admin is admin@sav.org.ar hashed from admin123 and the phase is REGISTRATION |
| Seed.SeedPreservesValid | prisma/seed.ts:11-47 | seeding keeps the store invariant |
| Dashboards.CanUpload | src/components/user-dashboard.tsx:26 | the upload panel is open unless the phase shown is JUDGING or RESULTS |
| Dashboards.CanVote | src/components/user-dashboard.tsx:27 | voting is open exactly in JUDGING, so never when no phase is known, and never while uploads are open |
| Dashboards.VotedPhotoId | src/components/user-dashboard.tsx:23-24 | has-voted is exactly a non-empty vote list, and the voted photo is the first vote's |
| Dashboards.SelectFile | src/components/user-dashboard.tsx:34-52 | no file changes nothing; a rejected file only sets the message; an accepted file is selected with its extension-stripped name as title and the message cleared |
| Dashboards.SubmitUpload | src/components/user-dashboard.tsx:54-68 | nothing is sent without a file; a blank title only sets the message; otherwise the trimmed, non-empty title is sent |
| Dashboards.Cancel | src/components/contestant-dashboard.tsx:105-109 | file, title and message are cleared, and the other panel state is kept |
| Dashboards.CancelThenSubmitSendsNothing | src/components/contestant-dashboard.tsx:49-50 | after a cancel, an upload press leaves the panel as it is and sends nothing |
| Dashboards.VoteRequest | src/components/user-dashboard.tsx:110-111 | a vote is sent exactly in JUDGING by a user with no vote |
| Dashboards.RemoveVoteRequest | src/components/user-dashboard.tsx:139-142 | a removal is sent exactly in JUDGING by a user with a vote who confirmed |
| Dashboards.RemoveVoteGuardWithinServerGate | src/components/user-dashboard.tsx:140 | shown the phase `/api/settings` reports, the removal guard never sends a request the route's phase gate refuses |
| Dashboards.SubmittedTitleIsStored | src/components/user-dashboard.tsx:56-68 | a title sent by the dashboard is the title the route stores, never the file name |
| Dashboards.SelectedUploadAccepted | src/components/user-dashboard.tsx:34-68 | a file the user dashboard accepted and sent passes every server check on the file, so a USER without a photo in an open phase gets 201 when the blob store stores it |
| Dashboards.VoteGuardWithinServerGate | src/components/user-dashboard.tsx:27 | shown the phase `/api/settings` reports, the vote guard never sends a vote the route's phase gate refuses; with no settings row it refuses a vote the route would accept |
| Dashboards.UploadGuardMatchesServerGate | src/components/user-dashboard.tsx:26 | shown the phase `/api/settings` reports, the user dashboard's upload guard and the route's registration gate agree exactly |
| Dashboards.RowPhase | src/app/contestant/page.tsx:19-25 | the contestant dashboard is shown the raw settings row's phase, or none when there is no row |
| Dashboards.ContestantUploadGuardMatchesServerGate | src/components/contestant-dashboard.tsx:20 | shown the raw settings row, the contestant dashboard's upload guard and the route's registration gate agree exactly, and a missing row opens both |
| Dashboards.ContestantUploadRefused | src/app/api/photos/route.ts:13-15 | the upload route answers 401 to every CONTESTANT session, whatever it sends, and stores and puts nothing |

## Findings

| source | as written | input that shows it | evidently intended | confidence | as-written member | corrected member |
|---|---|---|---|---|---|---|
| src/app/dashboard/page.tsx:44 | the admin's results podium is the first three photos of `/api/photos/all`, which is ordered by upload time, newest first | two photos in the RESULTS phase: an older one with 5 votes and a newer one with 0; the newer one is placed first | rank by `voteCount` descending before taking three, as the admin page does, since the podium shows each photo's votes | medium, not executed | ResultsView.DashboardResults (counterexample: ResultsView.DashboardPodiumIgnoresVotes) | ResultsView.RankedDashboardResults (proved: ResultsView.RankedDashboardIsTopVoted) |
| src/app/api/forgot-password/route.ts:62-68 | when the mail service fails, the reply to the unauthenticated caller carries `manualLink`, the live reset link; mail always fails when `RESEND_API_KEY` is unset (src/lib/email.ts:6-9) | a request naming a registered address while mail fails: the reply's link resets that account's password to anything the caller chooses | the reply must not reveal whether the address exists (the route's own comment at line 34), so it carries no link and the link reaches only the account's mailbox | high, not executed | PasswordReset.ForgotPassword (exhibited by PasswordReset.ManualLinkResetsAccount and PasswordReset.ForgotEnumeratesWhenMailFails) | PasswordReset.ForgotPasswordNoLink (proved: PasswordReset.NoLinkRevealsNothing) |

## Left out

- Concurrency: the check-then-act windows in the vote and upload routes and concurrent phase changes. Execution is sequential, and database unique constraints that would only matter under races are not modelled.
- PhotoRoutes.Upload: does not model `photo.create` failing after a successful blob `put`. An admin can delete a user (src/app/api/admin/users/[id]/route.ts:56) whose session lives on. That user's next upload stores the blob, then the insert fails on `contestantId` and the route answers 500 with the blob orphaned. Accounts and sessions are not linked in this model, so the model answers 201 there.
- VoteRoutes.CastVote: does not model `vote.create` failing on `judgeId` (src/app/api/votes/route.ts:39-44) for a judge deleted by an admin (src/app/api/admin/users/[id]/route.ts:56) whose session lives on. The route answers 500 there; the model, with accounts and sessions unlinked, answers 200 and appends a vote for an account that no longer exists.
- The blob store's reply (URL and pathname) is an input. Whether it adds a random suffix to the requested path is not modelled.
- bcrypt is a `string -> string` parameter. Its random salt is not modelled.
- The mail call is a success flag plus a `SendResetEmail` effect. The HTML template, the recipient's name and the development-only `debug` field are left out.
- The limiters' counting is a boolean verdict. The three budgets (login 5 per 60 s, register 3 per 3600 s, vote 10 per 60 s) are constants in `RateLimit` and are not enforced.
- Text.ToLowerAscii: lowers only A–Z. JavaScript's `toLowerCase` also maps non-ASCII letters.
- PasswordReset.ResetPassword: the password length counts Unicode scalar values. JavaScript counts UTF-16 code units, so the two differ for characters outside the Basic Multilingual Plane.
- JSON body fields of the wrong type (a number where a string is expected) are not modelled. Each field is either a string or absent.
- PhotoRoutes.Upload: multipart parts of the wrong kind are not modelled; `UploadForm` holds a file or nothing for `file`, and a string or nothing for `title` (src/app/api/photos/route.ts:37-38). A `title` sent as a file part passes every check, the blob is stored (line 62), and `photo.create` (lines 66-73) then throws on the non-string title. The route answers 500 and leaves an orphaned blob, where the model answers 201. A `file` sent as text gets 400 in the route (a wrong type, or no file for an empty string), which the model cannot express.
- Response texts (Spanish messages) are reduced to `Failure` kinds. The HTTP status is kept.
- Rendering, navigation, the dashboards' fetch and reload plumbing, `handleDelete` (a confirm then a plain DELETE call), phase labels, and the admin page's user list are left out.
- Console logging and the seed script's exit and disconnect handling are left out.

=== FILE: contest_store.dfy ===
/** The contest's persistent state as one abstract store, the HTTP responses the
    routes produce, and the invariant every route keeps: a photo's vote counter
    equals the number of votes that reference it, a judge holds at most one vote
    and a contestant owns at most one photo. */
module ContestStore {
  import opened Wrappers
  import opened Seqs

  /** The `UserRole` values the routes compare against. */
  datatype Role = Admin | Judge | Contestant | User

  /** The stored contest phase; the database column only holds these three. */
  datatype Phase = Registration | Judging | Results

  /** What the session provider says about the caller. */
  datatype Session = Session(userId: string, role: Role)

  /** The single contest-settings row. */
  datatype Settings = Settings(phase: Phase, maxFileSize: int, allowedFileTypes: string)

  datatype Account = Account(id: string, name: string, email: string, passwordHash: string, role: Role)

  datatype Photo = Photo(
    id: string,
    contestantId: string,
    title: string,
    fileUrl: string,
    fileKey: string,
    uploadedAt: int,
    voteCount: int)

  datatype Vote = Vote(judgeId: string, photoId: string)

  /** A password-reset row; `expiresAt` is in integer milliseconds. */
  datatype ResetToken = ResetToken(email: string, expiresAt: int)

  /** Database tables plus the blob store's key set. Users are keyed by their
      (unique) email and reset tokens by their (unique) token string; photos and
      votes keep storage order, which is the order `findFirst` scans. */
  datatype Store = Store(
    settings: Option<Settings>,
    users: map<string, Account>,
    photos: seq<Photo>,
    votes: seq<Vote>,
    blobs: set<string>,
    resetTokens: map<string, ResetToken>)

  /** The failures the routes report, each with its HTTP status. */
  datatype Failure =
    | Unauthorized
    | PhaseClosed
    | PhotoAlreadyUploaded
    | NoFile
    | FileTooLarge
    | FileTypeNotAllowed
    | PhotoNotFound
    | AlreadyVoted
    | NoVoteToRemove
    | InvalidPhase
    | MissingResetFields
    | PasswordTooShort
    | InvalidOrExpiredToken
    | UnknownUser
    | InvalidEmail
    | TooManyAttempts
    | ServerError

  function StatusOf(f: Failure): nat
  {
    match f
    case Unauthorized => 401
    case PhotoNotFound => 404
    case TooManyAttempts => 429
    case ServerError => 500
    case _ => 400
  }

  datatype Reply =
    | Failed(why: Failure)
    | Done
    | PhotoCreated(photo: Photo)
    | SettingsRow(row: Option<Settings>)
    | ResetAck(manualLink: Option<string>)

  datatype Response = Response(status: nat, reply: Reply)

  function Reject(f: Failure): Response
  {
    Response(StatusOf(f), Failed(f))
  }

  /** Calls the routes make to external services, in the order they make them. */
  datatype Effect =
    | PutBlob(path: string)
    | DeleteBlob(key: string)
    | SendResetEmail(to: string, link: string)

  datatype Outcome = Outcome(store: Store, response: Response, effects: seq<Effect>)

  /** A request body: either it could not be parsed (the route's `await` throws
      and the route answers 500) or it yielded a value. */
  datatype Body<T> = Unparsable | Parsed(value: T)

  /** The routes' phase gate: a missing settings row never blocks. */
  function PhaseAllows(settings: Option<Settings>, phase: Phase): (open: bool)
    ensures settings.None? ==> open
    ensures settings.Some? && open ==> settings.value.phase == phase
    ensures settings.Some? && settings.value.phase == phase ==> open
  {
    settings.None? || settings.value.phase == phase
  }

  predicate HasRole(caller: Option<Session>, role: Role)
  {
    caller.Some? && caller.value.role == role
  }

  function PhotoIds(photos: seq<Photo>): set<string>
  {
    set p | p in photos :: p.id
  }

  /** Number of votes that reference `photoId`. */
  function CountVotes(votes: seq<Vote>, photoId: string): nat
  {
    if |votes| == 0 then 0
    else CountVotes(votes[..|votes| - 1], photoId) + (if votes[|votes| - 1].photoId == photoId then 1 else 0)
  }

  /** The votes left after every vote referencing `photoId` is removed (a
      cascading photo delete). */
  function WithoutVotesFor(votes: seq<Vote>, photoId: string): (r: seq<Vote>)
    ensures forall v :: v in r <==> v in votes && v.photoId != photoId
    ensures |r| <= |votes|
  {
    if |votes| == 0 then []
    else
      var init := WithoutVotesFor(votes[..|votes| - 1], photoId);
      var last := votes[|votes| - 1];
      assert forall v :: v in votes <==> v in votes[..|votes| - 1] || v == last by {
        assert votes == votes[..|votes| - 1] + [last];
      }
      if last.photoId == photoId then init else init + [last]
  }

  /** The photo list after `photo.update({where: {id}, data: {voteCount: {increment: delta}}})`. */
  function AdjustCount(photos: seq<Photo>, photoId: string, delta: int): (r: seq<Photo>)
    ensures |r| == |photos|
    ensures forall i :: 0 <= i < |r| ==> r[i] == if photos[i].id == photoId then photos[i].(voteCount := photos[i].voteCount + delta) else photos[i]
  {
    seq(|photos|, i requires 0 <= i < |photos| =>
      if photos[i].id == photoId then photos[i].(voteCount := photos[i].voteCount + delta) else photos[i])
  }

  ghost predicate DistinctPhotoIds(photos: seq<Photo>)
  {
    forall i, j :: 0 <= i < j < |photos| ==> photos[i].id != photos[j].id
  }

  ghost predicate OnePhotoPerContestant(photos: seq<Photo>)
  {
    forall i, j :: 0 <= i < j < |photos| ==> photos[i].contestantId != photos[j].contestantId
  }

  ghost predicate OneVotePerJudge(votes: seq<Vote>)
  {
    forall i, j :: 0 <= i < j < |votes| ==> votes[i].judgeId != votes[j].judgeId
  }

  ghost predicate VotesReferencePhotos(votes: seq<Vote>, photos: seq<Photo>)
  {
    forall v :: v in votes ==> v.photoId in PhotoIds(photos)
  }

  ghost predicate CountsMatch(photos: seq<Photo>, votes: seq<Vote>)
  {
    forall i :: 0 <= i < |photos| ==> photos[i].voteCount == CountVotes(votes, photos[i].id)
  }

  ghost predicate UsersKeyedByEmail(users: map<string, Account>)
  {
    forall e :: e in users ==> users[e].email == e
  }

  /** The store invariant. */
  ghost predicate Valid(s: Store)
  {
    && DistinctPhotoIds(s.photos)
    && OnePhotoPerContestant(s.photos)
    && OneVotePerJudge(s.votes)
    && VotesReferencePhotos(s.votes, s.photos)
    && CountsMatch(s.photos, s.votes)
    && UsersKeyedByEmail(s.users)
  }

  /** The empty database the contest starts from. */
  function EmptyStore(): (s: Store)
    ensures Valid(s)
    ensures s.settings.None? && |s.photos| == 0 && |s.votes| == 0
  {
    Store(None, map[], [], [], {}, map[])
  }

  /** Appending a vote adds one to the count of exactly the photo it references. */
  lemma CountAppend(votes: seq<Vote>, v: Vote, photoId: string)
    ensures CountVotes(votes + [v], photoId) == CountVotes(votes, photoId) + (if v.photoId == photoId then 1 else 0)
  {
    assert (votes + [v])[..|votes|] == votes;
  }

  /** Removing one vote subtracts one from the count of exactly the photo it references. */
  lemma {:induction false} CountRemoveAt(votes: seq<Vote>, i: nat, photoId: string)
    requires i < |votes|
    ensures CountVotes(RemoveAt(votes, i), photoId) == CountVotes(votes, photoId) - (if votes[i].photoId == photoId then 1 else 0)
  {
    var init := votes[..|votes| - 1];
    var last := votes[|votes| - 1];
    if i == |votes| - 1 {
      assert RemoveAt(votes, i) == init;
    } else {
      CountRemoveAt(init, i, photoId);
      assert RemoveAt(votes, i) == RemoveAt(init, i) + [last];
      CountAppend(RemoveAt(init, i), last, photoId);
    }
  }

  /** A cascading delete of `photoId`'s votes leaves every other photo's count alone. */
  lemma {:induction false} CountWithout(votes: seq<Vote>, photoId: string, other: string)
    ensures CountVotes(WithoutVotesFor(votes, photoId), other) == if other == photoId then 0 else CountVotes(votes, other)
  {
    if |votes| > 0 {
      var init := votes[..|votes| - 1];
      var last := votes[|votes| - 1];
      CountWithout(init, photoId, other);
      if last.photoId != photoId {
        CountAppend(WithoutVotesFor(init, photoId), last, other);
      }
    }
  }

  /** A cascading delete never gives a judge a second vote. */
  lemma {:induction false} WithoutKeepsOneVotePerJudge(votes: seq<Vote>, photoId: string)
    requires OneVotePerJudge(votes)
    ensures OneVotePerJudge(WithoutVotesFor(votes, photoId))
  {
    if |votes| > 0 {
      var init := votes[..|votes| - 1];
      var last := votes[|votes| - 1];
      WithoutKeepsOneVotePerJudge(init, photoId);
      var w := WithoutVotesFor(init, photoId);
      if last.photoId != photoId {
        forall k | 0 <= k < |w|
          ensures w[k].judgeId != last.judgeId
        {
          assert w[k] in init;
          var j :| 0 <= j < |init| && init[j] == w[k];
          assert votes[j] == w[k];
        }
      }
    }
  }

  /** A photo that some vote references has a count of at least one. */
  lemma CountPositiveWhenReferenced(votes: seq<Vote>, i: nat)
    requires i < |votes|
    ensures CountVotes(votes, votes[i].photoId) >= 1
  {
    CountRemoveAt(votes, i, votes[i].photoId);
  }
}

=== FILE: dashboards.dfy ===
/** The decisions the user and contestant dashboards take before calling the
    routes: which file they accept and what title they suggest, whether an
    upload is sent and with which title, and when a vote or a vote removal is
    sent. Both dashboards share the upload handlers, modelled once here. */
module Dashboards {
  import opened Wrappers
  import opened ContestStore
  import opened FileRules
  import opened Text
  import opened PhotoRoutes
  import opened ResultsView

  datatype PanelError = FileTooLargeMsg | FileTypeMsg | TitleRequired

  /** The upload panel's React state. */
  datatype UploadPanel = UploadPanel(
    selected: Option<File>,
    title: string,
    error: Option<PanelError>,
    success: bool,
    uploading: bool)

  /** `canUpload`: no settings, or the registration phase. */
  function CanUpload(phase: Option<Phase>): (b: bool)
    ensures b <==> phase != Some(Judging) && phase != Some(Results)
  {
    phase.None? || phase.value == Registration
  }

  /** `canVote`: only the judging phase; missing settings do not allow it. */
  function CanVote(phase: Option<Phase>): (b: bool)
    ensures b <==> phase == Some(Judging)
    ensures b ==> !CanUpload(phase)
  {
    phase == Some(Judging)
  }

  /** `hasVoted` and `votedPhotoId` from the signed-in user's votes. */
  function VotedPhotoId(votes: seq<Vote>): (r: Option<string>)
    ensures r.Some? <==> |votes| > 0
    ensures r.Some? ==> r.value == votes[0].photoId
  {
    if |votes| > 0 then Some(votes[0].photoId) else None
  }

  /** `handleFileSelect`: reject an oversized or non-image file with a message
      (leaving the rest of the panel as it was), otherwise select it and suggest
      its name without the extension as the title. */
  function SelectFile(panel: UploadPanel, picked: Option<File>): (p: UploadPanel)
    ensures picked.None? ==> p == panel
    ensures picked.Some? && CheckFile(picked.value) == TooLarge ==> p == panel.(error := Some(FileTooLargeMsg))
    ensures picked.Some? && CheckFile(picked.value) == WrongType ==> p == panel.(error := Some(FileTypeMsg))
    ensures picked.Some? && CheckFile(picked.value) == Acceptable ==>
      p == panel.(selected := picked, title := StripExtension(picked.value.name), error := None)
  {
    match picked
    case None => panel
    case Some(f) =>
      match CheckFile(f)
      case TooLarge => panel.(error := Some(FileTooLargeMsg))
      case WrongType => panel.(error := Some(FileTypeMsg))
      case Acceptable => panel.(selected := picked, title := StripExtension(f.name), error := None)
  }

  /** `handleUpload` up to the request: nothing without a file, a message for a
      blank title, otherwise the form sent with the trimmed title. */
  function SubmitUpload(panel: UploadPanel): (r: (UploadPanel, Option<UploadForm>))
    ensures panel.selected.None? ==> r == (panel, None)
    ensures panel.selected.Some? && IsBlank(panel.title) ==> r == (panel.(error := Some(TitleRequired)), None)
    ensures r.1.Some? <==> panel.selected.Some? && !IsBlank(panel.title)
    ensures r.1.Some? ==>
      && r.1.value == UploadForm(panel.selected, Some(Trim(panel.title)))
      && r.1.value.title.value != ""
      && r.0 == panel.(error := None, success := false, uploading := true)
  {
    if panel.selected.None? then (panel, None)
    else if Trim(panel.title) == "" then (panel.(error := Some(TitleRequired)), None)
    else (panel.(error := None, success := false, uploading := true), Some(UploadForm(panel.selected, Some(Trim(panel.title)))))
  }

  /** `handleCancel` (contestant dashboard): forget the file, the title and the
      message; the success flag and the uploading flag stay. */
  function Cancel(panel: UploadPanel): (p: UploadPanel)
    ensures p.selected.None? && p.title == "" && p.error.None?
    ensures p.success == panel.success && p.uploading == panel.uploading
  {
    panel.(selected := None, title := "", error := None)
  }

  /** `handleVote`: the photo id posted, if the request is sent at all. */
  function VoteRequest(phase: Option<Phase>, votes: seq<Vote>, photoId: string): (r: Option<string>)
    ensures r.Some? <==> CanVote(phase) && |votes| == 0
    ensures r.Some? ==> r.value == photoId
  {
    if !CanVote(phase) || VotedPhotoId(votes).Some? then None else Some(photoId)
  }

  /** `handleRemoveVote`: whether the DELETE request is sent. */
  function RemoveVoteRequest(phase: Option<Phase>, votes: seq<Vote>, confirmed: bool): (sent: bool)
    ensures sent <==> phase == Some(Judging) && |votes| > 0 && confirmed
  {
    CanVote(phase) && VotedPhotoId(votes).Some? && confirmed
  }

  /** A title that survives the dashboard's blank check is the title stored:
      the server never falls back to the file name for a dashboard upload. */
  lemma SubmittedTitleIsStored(s: Store, caller: Option<Session>, panel: UploadPanel, put: BlobReply, photoId: string, now: int)
    requires photoId !in PhotoIds(s.photos)
    requires panel.selected.Some? && !IsBlank(panel.title)
    ensures var o := Upload(s, caller, Parsed(SubmitUpload(panel).1.value), put, photoId, now);
      o.response.status == 201 ==>
      && o.response.reply.PhotoCreated?
      && o.response.reply.photo.title == Trim(panel.title)
      && o.response.reply.photo.title != ""
  {
  }

  /** A file the dashboard accepted and sent passes every server check on the
      file, so a registration-phase upload by a USER without a photo succeeds
      when the blob store stores it. */
  lemma SelectedUploadAccepted(s: Store, userId: string, picked: File, panel: UploadPanel, url: string, pathname: string, photoId: string, now: int)
    requires photoId !in PhotoIds(s.photos)
    requires PhaseAllows(s.settings, Registration) && !OwnsPhoto(s.photos, userId)
    requires CheckFile(picked) == Acceptable
    requires !IsBlank(SelectFile(panel, Some(picked)).title)
    ensures var form := SubmitUpload(SelectFile(panel, Some(picked))).1;
      && form.Some?
      && Upload(s, Some(Session(userId, User)), Parsed(form.value), Stored(url, pathname), photoId, now).response.status == 201
  {
  }

  /** The phase the user dashboard (`/dashboard`) is shown: `/api/settings`
      reports the stored phase, or REGISTRATION when there is no settings row,
      so the `!settings` case of its guards never arises. */
  function ShownPhase(s: Store): (p: Option<Phase>)
    ensures p.Some? && p.value == PublicPhase(s.settings)
  {
    Some(PublicPhase(s.settings))
  }

  /** The dashboard's vote guard never sends a vote the route's phase gate
      refuses; with no settings row it is stricter, since it refuses a vote the
      route would accept. */
  lemma VoteGuardWithinServerGate(s: Store, votes: seq<Vote>, photoId: string)
    ensures VoteRequest(ShownPhase(s), votes, photoId).Some? ==> PhaseAllows(s.settings, Judging)
    ensures s.settings.None? ==> VoteRequest(ShownPhase(s), votes, photoId).None? && PhaseAllows(s.settings, Judging)
  {
  }

  /** The user dashboard's upload guard and the route's registration gate agree
      exactly. */
  lemma UploadGuardMatchesServerGate(s: Store)
    ensures CanUpload(ShownPhase(s)) <==> PhaseAllows(s.settings, Registration)
  {
  }

  /** The phase the contestant dashboard (`/contestant`) is shown: the raw
      settings row's phase, or none when there is no row. */
  function RowPhase(s: Store): (p: Option<Phase>)
    ensures p.None? <==> s.settings.None?
    ensures p.Some? ==> p.value == s.settings.value.phase
  {
    if s.settings.Some? then Some(s.settings.value.phase) else None
  }

  /** The contestant dashboard's upload guard, shown the raw row, also agrees
      exactly with the route's registration gate, the missing row included. */
  lemma ContestantUploadGuardMatchesServerGate(s: Store)
    ensures CanUpload(RowPhase(s)) <==> PhaseAllows(s.settings, Registration)
    ensures s.settings.None? ==> CanUpload(RowPhase(s))
  {
  }

  /** The contestant dashboard is served only to CONTESTANT sessions, and the
      upload route refuses every one of them: whatever that dashboard sends,
      the answer is 401 and nothing is stored or put. */
  lemma ContestantUploadRefused(s: Store, userId: string, form: Body<UploadForm>, put: BlobReply, photoId: string, now: int)
    requires photoId !in PhotoIds(s.photos)
    ensures Upload(s, Some(Session(userId, Contestant)), form, put, photoId, now) == Outcome(s, Reject(Unauthorized), [])
  {
  }

  /** The vote-removal guard, like the vote guard, never sends a request the
      route's phase gate refuses. */
  lemma RemoveVoteGuardWithinServerGate(s: Store, votes: seq<Vote>, confirmed: bool)
    ensures RemoveVoteRequest(ShownPhase(s), votes, confirmed) ==> PhaseAllows(s.settings, Judging) && s.settings.Some?
  {
  }

  /** After a cancel, pressing upload sends nothing until a file is picked
      again. */
  lemma CancelThenSubmitSendsNothing(panel: UploadPanel)
    ensures SubmitUpload(Cancel(panel)) == (Cancel(panel), None)
  {
  }
}

=== FILE: file_rules.dfy ===
/** Rules about an uploaded file that both the upload route and the two
    dashboards apply: the 10 MiB size cap, the three image MIME types, and the
    title a dashboard derives from the file name. */
module FileRules {
  import opened Wrappers

  /** A file as the browser and the multipart form describe it. */
  datatype File = File(name: string, size: nat, mimeType: string)

  const MaxUploadBytes: nat := 10 * 1024 * 1024
  const AllowedTypes: seq<string> := ["image/jpeg", "image/png", "image/webp"]

  datatype FileVerdict = Acceptable | TooLarge | WrongType

  /** The size check runs first, then the type check. */
  function CheckFile(f: File): (v: FileVerdict)
    ensures v == TooLarge <==> f.size > 10485760
    ensures v == WrongType <==> f.size <= 10485760 && f.mimeType != "image/jpeg" && f.mimeType != "image/png" && f.mimeType != "image/webp"
    ensures v == Acceptable <==> f.size <= 10485760 && (f.mimeType == "image/jpeg" || f.mimeType == "image/png" || f.mimeType == "image/webp")
  {
    if f.size > MaxUploadBytes then TooLarge
    else if f.mimeType !in AllowedTypes then WrongType
    else Acceptable
  }

  /** Characters excluded from the extension part of `/\.[^/.]+$/`. */
  predicate IsStop(c: char)
  {
    c == '.' || c == '/'
  }

  /** Index of the last '.' or '/' in `s`. */
  function LastStop(s: string): (r: Option<nat>)
    ensures r.None? ==> forall k :: 0 <= k < |s| ==> !IsStop(s[k])
    ensures r.Some? ==> r.value < |s| && IsStop(s[r.value])
    ensures r.Some? ==> forall k :: r.value < k < |s| ==> !IsStop(s[k])
  {
    if |s| == 0 then None
    else if IsStop(s[|s| - 1]) then Some(|s| - 1)
    else LastStop(s[..|s| - 1])
  }

  /** The regular expression `/\.[^/.]+$/` matches `s` from index `i` on: a dot
      followed by at least one character, none of them a dot or a slash, up to
      the end of the string. */
  ghost predicate ExtensionAt(s: string, i: int)
  {
    0 <= i < |s| - 1 && s[i] == '.' && forall k :: i < k < |s| ==> !IsStop(s[k])
  }

  /** The only place the expression can match is the last dot-or-slash, and only
      when it is a dot that is not the final character. */
  lemma ExtensionIsLastStop(name: string)
    ensures forall i :: ExtensionAt(name, i) <==>
      LastStop(name).Some? && i == LastStop(name).value && name[i] == '.' && i < |name| - 1
  {
    forall i | ExtensionAt(name, i)
      ensures LastStop(name).Some? && i == LastStop(name).value
    {
      assert IsStop(name[i]);
    }
  }

  /** `name.replace(/\.[^/.]+$/, '')`: the name without its final extension. */
  function StripExtension(name: string): (title: string)
    ensures forall i :: ExtensionAt(name, i) ==> title == name[..i]
    ensures (forall i :: !ExtensionAt(name, i)) ==> title == name
  {
    ExtensionIsLastStop(name);
    match LastStop(name)
    case Some(k) =>
      if name[k] == '.' && k < |name| - 1 then name[..k] else name
    case None => name
  }

  /** The regular expression matches at most once, so the stripped title is a
      proper prefix exactly when there is an extension to strip. */
  lemma StripExtensionShape(name: string)
    ensures StripExtension(name) == name || (|StripExtension(name)| < |name| - 1 && name[|StripExtension(name)|] == '.')
    ensures forall i, j :: ExtensionAt(name, i) && ExtensionAt(name, j) ==> i == j
  {
    ExtensionIsLastStop(name);
  }

  lemma StripExtensionExamples()
    ensures StripExtension("a.tar.gz") == "a.tar"
    ensures StripExtension("noext") == "noext"
    ensures StripExtension("x.") == "x."
    ensures StripExtension("photo.jpg") == "photo"
    ensures StripExtension("dir.v2/readme") == "dir.v2/readme"
  {
    assert ExtensionAt("a.tar.gz", 5);
    assert ExtensionAt("photo.jpg", 5);
    var n := "noext";
    assert forall k :: 0 <= k < |n| ==> !IsStop(n[k]);
    var d := "dir.v2/readme";
    assert IsStop(d[6]);
    assert forall i :: ExtensionAt(d, i) ==> d[i] == '.' && i != 3 && i < 6;
  }
}

=== FILE: password_reset.dfy ===
/** The password-reset token lifecycle: `POST /api/forgot-password` stores a
    one-hour token for a known email without revealing whether the email is
    known, and `POST /api/reset-password` consumes a live token exactly once. */
module PasswordReset {
  import opened Wrappers
  import opened ContestStore
  import opened Text

  /** One hour, in milliseconds. */
  const TokenLifetimeMs: int := 60 * 60 * 1000

  /** The link mailed (or handed back) for a token. */
  function ResetLink(baseUrl: string, token: string): (link: string)
    ensures |link| == |baseUrl| + 22 + |token|
    ensures link[..|baseUrl|] == baseUrl
    ensures link[|baseUrl|..|baseUrl| + 22] == "/reset-password?token="
    ensures link[|baseUrl| + 22..] == token
  {
    baseUrl + "/reset-password?token=" + token
  }

  /** The reply every accepted request gets when the email goes out, and every
      request for an unknown address gets. */
  const NeutralAck: Response := Response(200, ResetAck(None))

  /** POST /api/forgot-password. `allowed` is the register limiter's verdict for
      the caller's address, `token` the fresh random token, `now` the clock in
      milliseconds, `emailSent` the mail service's verdict and `baseUrl` the
      configured site URL. The body's `email` is `None` when absent. */
  function ForgotPassword(s: Store, allowed: bool, body: Body<Option<string>>, token: string, now: int, emailSent: bool, baseUrl: string): (o: Outcome)
    requires token !in s.resetTokens
    ensures !allowed ==> o == Outcome(s, Reject(TooManyAttempts), [])
    ensures allowed && body.Unparsable? ==> o == Outcome(s, Reject(ServerError), [])
    ensures allowed && body.Parsed? && (body.value.None? || '@' !in body.value.value)
      ==> o == Outcome(s, Reject(InvalidEmail), [])
    ensures allowed && body.Parsed? && body.value.Some? && '@' in body.value.value
      && ToLowerAscii(body.value.value) !in s.users
      ==> o == Outcome(s, NeutralAck, [])
    ensures allowed && body.Parsed? && body.value.Some? && '@' in body.value.value
      && ToLowerAscii(body.value.value) in s.users
      ==> var account := s.users[ToLowerAscii(body.value.value)];
          var link := ResetLink(baseUrl, token);
          && o.store == s.(resetTokens := s.resetTokens[token := ResetToken(account.email, now + 3600000)])
          && o.effects == [SendResetEmail(account.email, link)]
          && o.response == Response(200, ResetAck(if emailSent then None else Some(link)))
  {
    if !allowed then Outcome(s, Reject(TooManyAttempts), [])
    else if body.Unparsable? then Outcome(s, Reject(ServerError), [])
    else if body.value.None? || '@' !in body.value.value then Outcome(s, Reject(InvalidEmail), [])
    else
      var key := ToLowerAscii(body.value.value);
      if key !in s.users then Outcome(s, NeutralAck, [])
      else
        var account := s.users[key];
        var link := ResetLink(baseUrl, token);
        var s' := s.(resetTokens := s.resetTokens[token := ResetToken(account.email, now + TokenLifetimeMs)]);
        Outcome(s', Response(200, ResetAck(if emailSent then None else Some(link))), [SendResetEmail(account.email, link)])
  }

  /** A caller cannot tell a known address from an unknown one while mail
      delivery works: both get the same reply. */
  lemma ForgotDoesNotEnumerate(s: Store, token: string, now: int, baseUrl: string, known: string, unknown: string)
    requires token !in s.resetTokens
    requires '@' in known && '@' in unknown
    requires ToLowerAscii(known) in s.users && ToLowerAscii(unknown) !in s.users
    ensures ForgotPassword(s, true, Parsed(Some(known)), token, now, true, baseUrl).response
         == ForgotPassword(s, true, Parsed(Some(unknown)), token, now, true, baseUrl).response
  {
  }

  datatype ResetRequest = ResetRequest(token: Option<string>, password: Option<string>)

  predicate Present(v: Option<string>)
  {
    v.Some? && v.value != ""
  }

  /** POST /api/reset-password. `now` is the clock in milliseconds and `hash`
      the password hashing function. */
  function ResetPassword(s: Store, body: Body<ResetRequest>, now: int, hash: string -> string): (o: Outcome)
    ensures o.effects == []
    ensures body.Unparsable? ==> o == Outcome(s, Reject(ServerError), [])
    ensures body.Parsed? && (!Present(body.value.token) || !Present(body.value.password))
      ==> o == Outcome(s, Reject(MissingResetFields), [])
    ensures body.Parsed? && Present(body.value.token) && Present(body.value.password) && |body.value.password.value| < 6
      ==> o == Outcome(s, Reject(PasswordTooShort), [])
    ensures body.Parsed? && Present(body.value.token) && Present(body.value.password) && |body.value.password.value| >= 6
      ==> var token := body.value.token.value;
          && (token !in s.resetTokens ==> o == Outcome(s, Reject(InvalidOrExpiredToken), []))
          && (token in s.resetTokens && now > s.resetTokens[token].expiresAt ==>
                o == Outcome(s.(resetTokens := s.resetTokens - {token}), Reject(InvalidOrExpiredToken), []))
          && (token in s.resetTokens && now <= s.resetTokens[token].expiresAt && s.resetTokens[token].email !in s.users ==>
                o == Outcome(s, Reject(UnknownUser), []))
    ensures o.response.status == 200 <==>
      && body.Parsed? && Present(body.value.token) && Present(body.value.password)
      && |body.value.password.value| >= 6
      && body.value.token.value in s.resetTokens
      && now <= s.resetTokens[body.value.token.value].expiresAt
      && s.resetTokens[body.value.token.value].email in s.users
    ensures o.response.status == 200 ==>
      && body.Parsed? && Present(body.value.token) && Present(body.value.password)
      && |body.value.password.value| >= 6
      && var token := body.value.token.value;
         && token in s.resetTokens && now <= s.resetTokens[token].expiresAt
         && var email := s.resetTokens[token].email;
            && email in s.users
            && o.response == Response(200, Done)
            && o.store == s.(users := s.users[email := s.users[email].(passwordHash := hash(body.value.password.value))],
                             resetTokens := s.resetTokens - {token})
  {
    if body.Unparsable? then Outcome(s, Reject(ServerError), [])
    else if !Present(body.value.token) || !Present(body.value.password) then Outcome(s, Reject(MissingResetFields), [])
    else if |body.value.password.value| < 6 then Outcome(s, Reject(PasswordTooShort), [])
    else
      var token := body.value.token.value;
      if token !in s.resetTokens then Outcome(s, Reject(InvalidOrExpiredToken), [])
      else if now > s.resetTokens[token].expiresAt then
        Outcome(s.(resetTokens := s.resetTokens - {token}), Reject(InvalidOrExpiredToken), [])
      else
        var email := s.resetTokens[token].email;
        if email !in s.users then Outcome(s, Reject(UnknownUser), [])
        else
          var account := s.users[email].(passwordHash := hash(body.value.password.value));
          Outcome(s.(users := s.users[email := account], resetTokens := s.resetTokens - {token}), Response(200, Done), [])
  }

  /** A token works once: replaying the request that consumed it fails. */
  lemma TokenSingleUse(s: Store, body: Body<ResetRequest>, now: int, later: int, hash: string -> string)
    requires ResetPassword(s, body, now, hash).response.status == 200
    ensures ResetPassword(ResetPassword(s, body, now, hash).store, body, later, hash).response == Reject(InvalidOrExpiredToken)
  {
  }

  /** The lifecycle round trip: a token issued for a known account resets that
      account's password at any time up to and including its expiry instant,
      and is gone afterwards. */
  lemma ForgotThenReset(s: Store, email: string, token: string, issuedAt: int, usedAt: int,
                        emailSent: bool, baseUrl: string, password: string, hash: string -> string)
    requires UsersKeyedByEmail(s.users)
    requires token !in s.resetTokens && token != ""
    requires '@' in email && ToLowerAscii(email) in s.users
    requires |password| >= 6
    requires usedAt <= issuedAt + 3600000
    ensures var s1 := ForgotPassword(s, true, Parsed(Some(email)), token, issuedAt, emailSent, baseUrl).store;
      var o := ResetPassword(s1, Parsed(ResetRequest(Some(token), Some(password))), usedAt, hash);
      var key := ToLowerAscii(email);
      && o.response == Response(200, Done)
      && o.store.users == s.users[key := s.users[key].(passwordHash := hash(password))]
      && o.store.resetTokens == s.resetTokens
  {
    var s1 := ForgotPassword(s, true, Parsed(Some(email)), token, issuedAt, emailSent, baseUrl).store;
    assert s1.resetTokens - {token} == s.resetTokens;
  }

  /** A token checked one millisecond after its expiry is rejected and removed. */
  lemma ExpiredTokenRemoved(s: Store, token: string, password: string, hash: string -> string)
    requires token in s.resetTokens && token != "" && |password| >= 6
    ensures var o := ResetPassword(s, Parsed(ResetRequest(Some(token), Some(password))), s.resetTokens[token].expiresAt + 1, hash);
      o.response == Reject(InvalidOrExpiredToken) && token !in o.store.resetTokens && o.store.users == s.users
  {
  }

  /** Neither route touches photos or votes, and a password change keeps every
      account under its own email. */
  lemma ResetRoutesPreserveValid(s: Store, allowed: bool, email: Body<Option<string>>, token: string, now: int,
                                 emailSent: bool, baseUrl: string, body: Body<ResetRequest>, hash: string -> string)
    requires Valid(s) && token !in s.resetTokens
    ensures Valid(ForgotPassword(s, allowed, email, token, now, emailSent, baseUrl).store)
    ensures Valid(ResetPassword(s, body, now, hash).store)
  {
  }

  /** As written, when mail delivery fails the reply hands the reset link to
      whoever asked, and that link resets the account's password: anyone who
      knows a registered address can take the account over. */
  lemma ManualLinkResetsAccount(s: Store, email: string, token: string, now: int, baseUrl: string,
                                password: string, hash: string -> string)
    requires UsersKeyedByEmail(s.users)
    requires token !in s.resetTokens && token != ""
    requires '@' in email && ToLowerAscii(email) in s.users
    requires |password| >= 6
    ensures var o := ForgotPassword(s, true, Parsed(Some(email)), token, now, false, baseUrl);
      var key := ToLowerAscii(email);
      && o.response == Response(200, ResetAck(Some(ResetLink(baseUrl, token))))
      && ResetPassword(o.store, Parsed(ResetRequest(Some(token), Some(password))), now, hash).response == Response(200, Done)
      && ResetPassword(o.store, Parsed(ResetRequest(Some(token), Some(password))), now, hash).store.users[key].passwordHash == hash(password)
  {
    var o := ForgotPassword(s, true, Parsed(Some(email)), token, now, false, baseUrl);
    assert o.store.resetTokens[token].email == ToLowerAscii(email);
  }

  /** As written, a failed delivery also tells a known address from an unknown
      one. */
  lemma ForgotEnumeratesWhenMailFails(s: Store, token: string, now: int, baseUrl: string, known: string, unknown: string)
    requires token !in s.resetTokens
    requires '@' in known && '@' in unknown
    requires ToLowerAscii(known) in s.users && ToLowerAscii(unknown) !in s.users
    ensures ForgotPassword(s, true, Parsed(Some(known)), token, now, false, baseUrl).response
         != ForgotPassword(s, true, Parsed(Some(unknown)), token, now, false, baseUrl).response
  {
  }

  /** POST /api/forgot-password as evidently intended: the same token, mail and
      store change, but the reply never carries the link, so a link only ever
      reaches the account's mailbox. */
  function ForgotPasswordNoLink(s: Store, allowed: bool, body: Body<Option<string>>, token: string, now: int, emailSent: bool, baseUrl: string): (o: Outcome)
    requires token !in s.resetTokens
    ensures o.store == ForgotPassword(s, allowed, body, token, now, emailSent, baseUrl).store
    ensures o.effects == ForgotPassword(s, allowed, body, token, now, emailSent, baseUrl).effects
    ensures o.response.status == ForgotPassword(s, allowed, body, token, now, emailSent, baseUrl).response.status
    ensures o.response.status == 200 ==> o.response == NeutralAck
  {
    var o := ForgotPassword(s, allowed, body, token, now, emailSent, baseUrl);
    if o.response.status == 200 then o.(response := NeutralAck) else o
  }

  /** The corrected route tells nobody anything: whether the address is known
      and whether the mail went out, the caller gets the same reply. */
  lemma NoLinkRevealsNothing(s: Store, token: string, now: int, baseUrl: string, known: string, unknown: string,
                             sent1: bool, sent2: bool)
    requires token !in s.resetTokens
    requires '@' in known && '@' in unknown
    requires ToLowerAscii(known) in s.users && ToLowerAscii(unknown) !in s.users
    ensures ForgotPasswordNoLink(s, true, Parsed(Some(known)), token, now, sent1, baseUrl).response
         == ForgotPasswordNoLink(s, true, Parsed(Some(unknown)), token, now, sent2, baseUrl).response
         == NeutralAck
  {
  }
}

=== FILE: photo_routes.dfy ===
/** The photo registry: `POST /api/photos` (one upload per caller, then a blob
    `put` and a row insert) and `DELETE /api/photos` (find the target row, delete
    its blob, then delete the row). */
module PhotoRoutes {
  import opened Wrappers
  import opened Seqs
  import opened ContestStore
  import opened FileRules

  /** The multipart form: either field may be missing. */
  datatype UploadForm = UploadForm(file: Option<File>, title: Option<string>)

  /** What the blob store's `put` answered. */
  datatype BlobReply = PutFailed | Stored(url: string, pathname: string)

  /** How the schema's vote-to-photo relation reacts when a photo row
      is deleted: cascade to its votes, or refuse while votes reference it. */
  datatype VoteLink = Cascade | Restrict

  /** The blob path the upload asks for: `photos/<userId>/<file name>`. */
  function BlobPath(userId: string, fileName: string): (path: string)
    ensures |path| == 8 + |userId| + |fileName|
    ensures path[..7] == "photos/" && path[7..7 + |userId|] == userId
    ensures path[7 + |userId|] == '/' && path[8 + |userId|..] == fileName
  {
    "photos/" + userId + "/" + fileName
  }

  predicate OwnsPhoto(photos: seq<Photo>, userId: string)
  {
    exists i :: 0 <= i < |photos| && photos[i].contestantId == userId
  }

  /** `formData.get('title') as string || file.name`: the title when it is
      present and non-empty, otherwise the file's name. `None` stands for the
      TypeError thrown when the title is blank and there is no file. */
  function FormTitle(form: UploadForm): (t: Option<string>)
    ensures form.title.Some? && form.title.value != "" ==> t == form.title
    ensures (form.title.None? || form.title.value == "") && form.file.Some? ==> t == Some(form.file.value.name)
    ensures t.None? <==> (form.title.None? || form.title.value == "") && form.file.None?
  {
    if form.title.Some? && form.title.value != "" then form.title
    else if form.file.Some? then Some(form.file.value.name)
    else None
  }

  /** POST /api/photos. `photoId` and `now` are the id and upload time the
      database assigns to the new row. */
  function Upload(s: Store, caller: Option<Session>, form: Body<UploadForm>, put: BlobReply, photoId: string, now: int): (o: Outcome)
    requires photoId !in PhotoIds(s.photos)
    ensures o.response.status != 201 ==> o.store == s
    ensures !HasRole(caller, User) ==> o.response == Reject(Unauthorized) && o.effects == []
    ensures HasRole(caller, User) && !PhaseAllows(s.settings, Registration)
      ==> o.response == Reject(PhaseClosed) && o.effects == []
    ensures HasRole(caller, User) && PhaseAllows(s.settings, Registration) && OwnsPhoto(s.photos, caller.value.userId)
      ==> o.response == Reject(PhotoAlreadyUploaded) && o.effects == []
    ensures HasRole(caller, User) && PhaseAllows(s.settings, Registration) && !OwnsPhoto(s.photos, caller.value.userId)
      && (form.Unparsable? || FormTitle(form.value).None?)
      ==> o.response == Reject(ServerError) && o.effects == []
    ensures HasRole(caller, User) && PhaseAllows(s.settings, Registration) && !OwnsPhoto(s.photos, caller.value.userId)
      && form.Parsed? && form.value.file.None? && form.value.title.Some? && form.value.title.value != ""
      ==> o.response == Reject(NoFile)
    ensures HasRole(caller, User) && PhaseAllows(s.settings, Registration) && !OwnsPhoto(s.photos, caller.value.userId)
      && form.Parsed? && form.value.file.Some? && CheckFile(form.value.file.value) != Acceptable
      ==> (o.response == Reject(if form.value.file.value.size > 10485760 then FileTooLarge else FileTypeNotAllowed)
           && o.effects == [])
    ensures o.effects != [] ==>
      && HasRole(caller, User) && form.Parsed? && form.value.file.Some?
      && CheckFile(form.value.file.value) == Acceptable
      && o.effects == [PutBlob(BlobPath(caller.value.userId, form.value.file.value.name))]
    ensures HasRole(caller, User) && PhaseAllows(s.settings, Registration) && !OwnsPhoto(s.photos, caller.value.userId)
      && form.Parsed? && form.value.file.Some? && CheckFile(form.value.file.value) == Acceptable
      ==> o.effects == [PutBlob(BlobPath(caller.value.userId, form.value.file.value.name))]
          && (put.PutFailed? ==> o.response == Reject(ServerError))
    ensures o.response.status == 201 <==>
      && HasRole(caller, User) && PhaseAllows(s.settings, Registration) && !OwnsPhoto(s.photos, caller.value.userId)
      && form.Parsed? && form.value.file.Some? && CheckFile(form.value.file.value) == Acceptable
      && put.Stored?
    ensures o.response.status == 201 ==>
      var photo := Photo(photoId, caller.value.userId, FormTitle(form.value).value, put.url, put.pathname, now, 0);
      && o.response.reply == PhotoCreated(photo)
      && o.store == s.(photos := s.photos + [photo], blobs := s.blobs + {put.pathname})
  {
    if !HasRole(caller, User) then Outcome(s, Reject(Unauthorized), [])
    else if !PhaseAllows(s.settings, Registration) then Outcome(s, Reject(PhaseClosed), [])
    else if FindFirst(s.photos, (p: Photo) => p.contestantId == caller.value.userId).Some? then
      Outcome(s, Reject(PhotoAlreadyUploaded), [])
    else if form.Unparsable? then Outcome(s, Reject(ServerError), [])
    else
      var title := FormTitle(form.value);
      if title.None? then Outcome(s, Reject(ServerError), [])
      else if form.value.file.None? then Outcome(s, Reject(NoFile), [])
      else
        var file := form.value.file.value;
        match CheckFile(file)
        case TooLarge => Outcome(s, Reject(FileTooLarge), [])
        case WrongType => Outcome(s, Reject(FileTypeNotAllowed), [])
        case Acceptable =>
          var effects := [PutBlob(BlobPath(caller.value.userId, file.name))];
          match put
          case PutFailed => Outcome(s, Reject(ServerError), effects)
          case Stored(url, pathname) =>
            var photo := Photo(photoId, caller.value.userId, title.value, url, pathname, now, 0);
            Outcome(s.(photos := s.photos + [photo], blobs := s.blobs + {pathname}), Response(201, PhotoCreated(photo)), effects)
  }

  /** The row `photo.findFirst` picks: any photo for an admin, otherwise the
      caller's own. */
  function DeleteTarget(photos: seq<Photo>, caller: Session): (r: Option<nat>)
    ensures caller.role == Admin ==> (r.None? <==> |photos| == 0) && (r.Some? ==> r.value == 0)
    ensures caller.role != Admin ==> (r.None? <==> !OwnsPhoto(photos, caller.userId))
    ensures caller.role != Admin && r.Some? ==> r.value < |photos| && photos[r.value].contestantId == caller.userId
  {
    if caller.role == Admin then FindFirst(photos, (p: Photo) => true)
    else FindFirst(photos, (p: Photo) => p.contestantId == caller.userId)
  }

  predicate Referenced(votes: seq<Vote>, photoId: string)
  {
    exists i :: 0 <= i < |votes| && votes[i].photoId == photoId
  }

  /** DELETE /api/photos. `blobDeleted` is whether the blob store's `del`
      succeeded; `link` is the schema's vote relation. */
  function DeletePhoto(s: Store, caller: Option<Session>, blobDeleted: bool, link: VoteLink): (o: Outcome)
    ensures caller.None? ==> o == Outcome(s, Reject(Unauthorized), [])
    ensures HasRole(caller, Contestant) && !PhaseAllows(s.settings, Registration)
      ==> o == Outcome(s, Reject(PhaseClosed), [])
    ensures caller.Some? && !(caller.value.role == Contestant && !PhaseAllows(s.settings, Registration))
      && DeleteTarget(s.photos, caller.value).None?
      ==> o == Outcome(s, Reject(PhotoNotFound), [])
    ensures o.effects != [] ==>
      && caller.Some? && DeleteTarget(s.photos, caller.value).Some?
      && o.effects == [DeleteBlob(s.photos[DeleteTarget(s.photos, caller.value).value].fileKey)]
    ensures caller.Some? && !(caller.value.role == Contestant && !PhaseAllows(s.settings, Registration))
      && DeleteTarget(s.photos, caller.value).Some?
      ==> o.effects == [DeleteBlob(s.photos[DeleteTarget(s.photos, caller.value).value].fileKey)]
    ensures o.effects != [] && !blobDeleted ==> o.store == s && o.response == Reject(ServerError)
    ensures o.effects != [] && blobDeleted && link == Restrict
      && Referenced(s.votes, s.photos[DeleteTarget(s.photos, caller.value).value].id)
      ==> o.store == s.(blobs := s.blobs - {s.photos[DeleteTarget(s.photos, caller.value).value].fileKey})
          && o.response == Reject(ServerError)
    ensures o.response.status == 200 <==>
      && caller.Some? && !(caller.value.role == Contestant && !PhaseAllows(s.settings, Registration))
      && DeleteTarget(s.photos, caller.value).Some? && blobDeleted
      && (link == Cascade || !Referenced(s.votes, s.photos[DeleteTarget(s.photos, caller.value).value].id))
    ensures o.response.status == 200 ==>
      var k := DeleteTarget(s.photos, caller.value).value;
      && o.response.reply == Done
      && o.store == s.(photos := RemoveAt(s.photos, k),
                       votes := WithoutVotesFor(s.votes, s.photos[k].id),
                       blobs := s.blobs - {s.photos[k].fileKey})
    ensures o.response.status != 200 ==> o.store.photos == s.photos && o.store.votes == s.votes
  {
    if caller.None? then Outcome(s, Reject(Unauthorized), [])
    else if caller.value.role == Contestant && !PhaseAllows(s.settings, Registration) then
      Outcome(s, Reject(PhaseClosed), [])
    else match DeleteTarget(s.photos, caller.value)
      case None => Outcome(s, Reject(PhotoNotFound), [])
      case Some(k) =>
        var photo := s.photos[k];
        var effects := [DeleteBlob(photo.fileKey)];
        if !blobDeleted then Outcome(s, Reject(ServerError), effects)
        else
          var s1 := s.(blobs := s.blobs - {photo.fileKey});
          if link == Restrict && Referenced(s.votes, photo.id) then
            // the row delete violates the foreign key; the blob is already gone
            Outcome(s1, Reject(ServerError), effects)
          else
            assert link == Cascade || !Referenced(s.votes, photo.id);
            Outcome(s1.(photos := RemoveAt(s.photos, k), votes := WithoutVotesFor(s.votes, photo.id)), Response(200, Done), effects)
  }

  /** An upload keeps the store invariant: the caller owned no photo, the new id
      is unused, and no vote references it, so its zero counter is right. */
  lemma UploadPreservesValid(s: Store, caller: Option<Session>, form: Body<UploadForm>, put: BlobReply, photoId: string, now: int)
    requires Valid(s) && photoId !in PhotoIds(s.photos)
    ensures Valid(Upload(s, caller, form, put, photoId, now).store)
  {
    var o := Upload(s, caller, form, put, photoId, now);
    if o.response.status == 201 {
      var photo := o.store.photos[|s.photos|];
      assert photo.id == photoId && photo.contestantId == caller.value.userId;
      forall i | 0 <= i < |s.photos| ensures s.photos[i].id != photoId && s.photos[i].contestantId != photo.contestantId {
        assert s.photos[i] in s.photos;
      }
      assert PhotoIds(o.store.photos) == PhotoIds(s.photos) + {photoId};
      if CountVotes(s.votes, photoId) != 0 {
        CountNonZeroReferenced(s.votes, photoId);
      }
    }
  }

  /** A positive count means some vote references the photo. */
  lemma {:induction false} CountNonZeroReferenced(votes: seq<Vote>, photoId: string)
    requires CountVotes(votes, photoId) != 0
    ensures exists v :: v in votes && v.photoId == photoId
  {
    var last := votes[|votes| - 1];
    if last.photoId != photoId {
      CountNonZeroReferenced(votes[..|votes| - 1], photoId);
      var v :| v in votes[..|votes| - 1] && v.photoId == photoId;
      assert v in votes;
    }
  }

  /** Removing one photo from a list of distinct ids removes exactly its id. */
  lemma RemovePhotoIds(photos: seq<Photo>, k: nat)
    requires k < |photos| && DistinctPhotoIds(photos)
    ensures PhotoIds(RemoveAt(photos, k)) == PhotoIds(photos) - {photos[k].id}
  {
    var r := RemoveAt(photos, k);
    forall x | x in PhotoIds(r) ensures x in PhotoIds(photos) - {photos[k].id} {
      var p :| p in r && p.id == x;
      var i :| 0 <= i < |r| && r[i] == p;
      var j := if i < k then i else i + 1;
      assert p == photos[j] && j != k;
    }
    forall x | x in PhotoIds(photos) - {photos[k].id} ensures x in PhotoIds(r) {
      var p :| p in photos && p.id == x;
      var i :| 0 <= i < |photos| && photos[i] == p;
      assert i != k;
      assert p == r[if i < k then i else i - 1];
    }
  }

  /** Removing one photo keeps ids and owners distinct. */
  lemma RemoveKeepsDistinct(photos: seq<Photo>, k: nat)
    requires k < |photos|
    ensures DistinctPhotoIds(photos) ==> DistinctPhotoIds(RemoveAt(photos, k))
    ensures OnePhotoPerContestant(photos) ==> OnePhotoPerContestant(RemoveAt(photos, k))
  {
    var r := RemoveAt(photos, k);
    forall a, b | 0 <= a < b < |r|
      ensures r[a] == photos[if a < k then a else a + 1] && r[b] == photos[if b < k then b else b + 1]
    {
    }
  }

  /** A photo delete keeps the store invariant, whichever way the schema's vote
      relation behaves. */
  lemma DeletePreservesValid(s: Store, caller: Option<Session>, blobDeleted: bool, link: VoteLink)
    requires Valid(s)
    ensures Valid(DeletePhoto(s, caller, blobDeleted, link).store)
  {
    var o := DeletePhoto(s, caller, blobDeleted, link);
    if o.response.status == 200 {
      var k := DeleteTarget(s.photos, caller.value).value;
      var gone := s.photos[k].id;
      var r := o.store.photos;
      RemovePhotoIds(s.photos, k);
      RemoveKeepsDistinct(s.photos, k);
      WithoutKeepsOneVotePerJudge(s.votes, gone);
      forall i | 0 <= i < |r| ensures r[i].voteCount == CountVotes(o.store.votes, r[i].id) {
        var j := if i < k then i else i + 1;
        assert r[i] == s.photos[j];
        CountWithout(s.votes, gone, r[i].id);
      }
    }
  }

  /** Uploading and then deleting one's own photo (with no blob at that path
      beforehand) gives back the store one started from. */
  lemma UploadThenDeleteRestores(s: Store, caller: Option<Session>, form: Body<UploadForm>, url: string, pathname: string,
                                 photoId: string, now: int, link: VoteLink)
    requires Valid(s) && photoId !in PhotoIds(s.photos) && pathname !in s.blobs
    requires Upload(s, caller, form, Stored(url, pathname), photoId, now).response.status == 201
    ensures DeletePhoto(Upload(s, caller, form, Stored(url, pathname), photoId, now).store, caller, true, link).store == s
  {
    var s1 := Upload(s, caller, form, Stored(url, pathname), photoId, now).store;
    assert s1.photos[|s.photos|].contestantId == caller.value.userId;
    assert OwnsPhoto(s1.photos, caller.value.userId);
    var k := DeleteTarget(s1.photos, caller.value).value;
    assert k == |s.photos|;
    assert RemoveAt(s1.photos, k) == s.photos;
    forall v | v in s.votes ensures v.photoId != photoId {
    }
    assert !Referenced(s.votes, photoId) by {
      forall i | 0 <= i < |s.votes| ensures s.votes[i].photoId != photoId {
        assert s.votes[i] in s.votes;
      }
    }
    WithoutNothing(s.votes, photoId);
  }

  /** Removing the votes of a photo nobody voted for changes nothing. */
  lemma {:induction false} WithoutNothing(votes: seq<Vote>, photoId: string)
    requires forall i :: 0 <= i < |votes| ==> votes[i].photoId != photoId
    ensures WithoutVotesFor(votes, photoId) == votes
  {
    if |votes| > 0 {
      WithoutNothing(votes[..|votes| - 1], photoId);
      assert votes == votes[..|votes| - 1] + [votes[|votes| - 1]];
    }
  }

  /** The phase gate only binds the CONTESTANT role: a USER, who is the role
      allowed to upload, can still delete their photo while judging. */
  lemma UserDeletesWhileJudging(s: Store, userId: string)
    requires s.settings.Some? && s.settings.value.phase == Judging
    requires OwnsPhoto(s.photos, userId)
    ensures DeletePhoto(s, Some(Session(userId, User)), true, Cascade).response == Response(200, Done)
    ensures DeletePhoto(s, Some(Session(userId, Contestant)), true, Cascade).response == Reject(PhaseClosed)
  {
  }
}

=== FILE: rate_limit.dfy ===
/** The rate-limit module: the three limiter budgets and `getIP`, which picks
    the client address out of the `x-forwarded-for` header. The limiters'
    counting is not modelled; routes receive its verdict as a boolean. */
module RateLimit {
  import opened Wrappers

  /** Points a key may spend per window of `seconds`. */
  datatype Budget = Budget(points: nat, seconds: nat)

  const LoginBudget: Budget := Budget(5, 60)
  const RegisterBudget: Budget := Budget(3, 3600)
  const VoteBudget: Budget := Budget(10, 60)

  /** `s.split(',')[0]`: everything before the first comma. */
  function UpToComma(s: string): (r: string)
    ensures |r| <= |s| && r == s[..|r|]
    ensures forall i :: 0 <= i < |r| ==> r[i] != ','
    ensures |r| < |s| ==> s[|r|] == ','
  {
    if |s| == 0 || s[0] == ',' then ""
    else
      var rest := UpToComma(s[1..]);
      assert s[..1 + |rest|] == [s[0]] + s[1..][..|rest|];
      [s[0]] + rest
  }

  /** `getIP`: the first comma-separated field of the forwarded header, or the
      loopback address when the header is absent or empty. */
  function GetIP(forwarded: Option<string>): (ip: string)
    ensures forwarded.None? || forwarded.value == "" ==> ip == "127.0.0.1"
    ensures forwarded.Some? && forwarded.value != "" ==>
      && |ip| <= |forwarded.value| && ip == forwarded.value[..|ip|]
      && (|ip| == |forwarded.value| || forwarded.value[|ip|] == ',')
    ensures forall i :: 0 <= i < |ip| ==> ip[i] != ','
  {
    if forwarded.Some? && forwarded.value != "" then UpToComma(forwarded.value) else "127.0.0.1"
  }

  /** A header with no comma comes back verbatim, surrounding spaces included. */
  lemma GetIPVerbatim(header: string)
    requires header != "" && forall i :: 0 <= i < |header| ==> header[i] != ','
    ensures GetIP(Some(header)) == header
  {
  }

  lemma GetIPExamples()
    ensures GetIP(Some("a,b")) == "a"
    ensures GetIP(Some(" c")) == " c"
    ensures GetIP(Some(",x")) == ""
    ensures GetIP(None) == "127.0.0.1"
  {
    assert "a,b"[1] == ',';
    assert ",x"[0] == ',';
  }
}

=== FILE: results_view.dfy ===
/** The results projection: the admin page's vote-ordered photo list and its
    top-three podium, and the podium the client dashboard computes for admins
    from the list it fetched. */
module ResultsView {
  import opened Wrappers
  import opened ContestStore

  /** One podium entry: `{position: index + 1, photo}`. */
  datatype Placing<T> = Placing(position: nat, entry: T)

  ghost predicate SortedDesc<T>(xs: seq<T>, key: T -> int)
  {
    forall i, j :: 0 <= i < j < |xs| ==> key(xs[i]) >= key(xs[j])
  }

  /** Inserts `x` before the first element whose key it reaches. */
  function Insert<T>(x: T, xs: seq<T>, key: T -> int): (r: seq<T>)
    requires SortedDesc(xs, key)
    ensures SortedDesc(r, key)
    ensures multiset(r) == multiset(xs) + multiset{x}
    ensures |r| > 0 && (r[0] == x || (|xs| > 0 && r[0] == xs[0]))
  {
    if |xs| == 0 || key(x) >= key(xs[0]) then [x] + xs
    else
      var rest := Insert(x, xs[1..], key);
      assert xs == [xs[0]] + xs[1..];
      [xs[0]] + rest
  }

  /** The database's `orderBy: { <key>: 'desc' }`, taken to keep storage order
      among equal keys. */
  function SortDesc<T>(xs: seq<T>, key: T -> int): (r: seq<T>)
    ensures SortedDesc(r, key)
    ensures multiset(r) == multiset(xs)
    ensures |r| == |xs|
  {
    if |xs| == 0 then []
    else
      assert xs == [xs[0]] + xs[1..];
      Insert(xs[0], SortDesc(xs[1..], key), key)
  }

  /** `list.slice(0, 3).map((photo, index) => ({position: index + 1, photo}))`. */
  function Podium<T>(xs: seq<T>): (r: seq<Placing<T>>)
    ensures |r| == if |xs| < 3 then |xs| else 3
    ensures forall i :: 0 <= i < |r| ==> r[i] == Placing(i + 1, xs[i])
  {
    var k := if |xs| < 3 then |xs| else 3;
    seq(k, i requires 0 <= i < k => Placing(i + 1, xs[i]))
  }

  function VoteCountOf(p: Photo): int
  {
    p.voteCount
  }

  function UploadedAtOf(p: Photo): int
  {
    p.uploadedAt
  }

  /** The admin page's data: all photos by votes, the settings row and the
      podium (present only in the results phase). */
  datatype AdminView =
    | RedirectToLogin
    | AdminView(photos: seq<Photo>, settings: Option<Settings>, results: Option<seq<Placing<Photo>>>)

  /** The server-rendered admin page. */
  function AdminPage(s: Store, caller: Option<Session>): (v: AdminView)
    ensures !HasRole(caller, Admin) <==> v.RedirectToLogin?
    ensures v.AdminView? ==>
      && multiset(v.photos) == multiset(s.photos)
      && SortedDesc(v.photos, VoteCountOf)
      && v.settings == s.settings
      && (v.results.Some? <==> s.settings.Some? && s.settings.value.phase == Results)
      && (v.results.Some? ==> v.results.value == Podium(v.photos))
  {
    if !HasRole(caller, Admin) then RedirectToLogin
    else
      var photos := SortDesc(s.photos, VoteCountOf);
      var results := if s.settings.Some? && s.settings.value.phase == Results then Some(Podium(photos)) else None;
      AdminView(photos, s.settings, results)
  }

  /** The admin page's podium holds the most-voted photos: every placed photo has
      at least as many votes as every photo left off it, positions run 1, 2, 3
      and every placed photo is one of the store's. */
  lemma AdminPodiumIsTopVoted(s: Store, caller: Option<Session>)
    requires AdminPage(s, caller).AdminView? && AdminPage(s, caller).results.Some?
    ensures var v := AdminPage(s, caller);
      var r := v.results.value;
      && |r| == (if |s.photos| < 3 then |s.photos| else 3)
      && (forall i :: 0 <= i < |r| ==> r[i].position == i + 1 && r[i].entry in s.photos)
      && (forall i, j :: 0 <= i < |r| <= j < |v.photos| ==> r[i].entry.voteCount >= v.photos[j].voteCount)
  {
    var v := AdminPage(s, caller);
    var r := v.results.value;
    forall i | 0 <= i < |r| ensures r[i].entry in s.photos {
      assert r[i].entry == v.photos[i];
      assert v.photos[i] in multiset(v.photos);
    }
    forall i, j | 0 <= i < |r| <= j < |v.photos| ensures r[i].entry.voteCount >= v.photos[j].voteCount {
      assert VoteCountOf(v.photos[i]) >= VoteCountOf(v.photos[j]);
    }
  }

  /** The phase `/api/settings` reports: the row's phase, REGISTRATION when
      there is no row. */
  function PublicPhase(settings: Option<Settings>): (p: Phase)
    ensures settings.Some? ==> p == settings.value.phase
    ensures settings.None? ==> p == Registration
  {
    if settings.Some? then settings.value.phase else Registration
  }

  /** `/api/photos/all`: every photo, newest upload first. */
  function RecentFirst(s: Store): (r: seq<Photo>)
    ensures multiset(r) == multiset(s.photos)
    ensures SortedDesc(r, UploadedAtOf)
  {
    SortDesc(s.photos, UploadedAtOf)
  }

  /** The client dashboard's podium, as written: computed for admins only, in the
      results phase, from the first three photos of the upload-time-ordered
      list. */
  function DashboardResults(s: Store, caller: Option<Session>): (r: Option<seq<Placing<Photo>>>)
    ensures r.Some? <==> HasRole(caller, Admin) && PublicPhase(s.settings) == Results
    ensures r.Some? ==> r.value == Podium(RecentFirst(s))
  {
    if HasRole(caller, Admin) && PublicPhase(s.settings) == Results then Some(Podium(RecentFirst(s)))
    else None
  }

  /** As written, the dashboard can award first place to a newer photo with
      fewer votes than an older one. */
  lemma DashboardPodiumIgnoresVotes()
    ensures var older := Photo("p1", "c1", "Older", "u1", "k1", 1, 5);
      var newer := Photo("p2", "c2", "Newer", "u2", "k2", 2, 0);
      var s := Store(Some(Settings(Results, 10485760, "image/jpeg,image/png,image/webp")), map[], [older, newer], [], {}, map[]);
      var r := DashboardResults(s, Some(Session("a", Admin)));
      && r.Some? && |r.value| == 2
      && r.value[0] == Placing(1, newer)
      && r.value[0].entry.voteCount < r.value[1].entry.voteCount
  {
    var older := Photo("p1", "c1", "Older", "u1", "k1", 1, 5);
    var newer := Photo("p2", "c2", "Newer", "u2", "k2", 2, 0);
    assert [older, newer][1..] == [newer];
    assert SortDesc([newer], UploadedAtOf) == [newer];
    assert Insert(older, [newer], UploadedAtOf) == [newer] + Insert(older, [], UploadedAtOf);
    assert SortDesc([older, newer], UploadedAtOf) == [newer, older];
  }

  /** The dashboard podium as evidently intended: the fetched list ranked by
      votes before the first three are taken, matching the admin page. */
  function RankedDashboardResults(s: Store, caller: Option<Session>): (r: Option<seq<Placing<Photo>>>)
    ensures r.Some? <==> HasRole(caller, Admin) && PublicPhase(s.settings) == Results
  {
    if HasRole(caller, Admin) && PublicPhase(s.settings) == Results then Some(Podium(SortDesc(RecentFirst(s), VoteCountOf)))
    else None
  }

  /** The corrected podium holds the most-voted photos: it is the head of a
      vote-descending permutation of the store's photos. */
  lemma RankedDashboardIsTopVoted(s: Store, caller: Option<Session>)
    requires RankedDashboardResults(s, caller).Some?
    ensures var r := RankedDashboardResults(s, caller).value;
      var ranked := SortDesc(RecentFirst(s), VoteCountOf);
      && multiset(ranked) == multiset(s.photos)
      && |r| == (if |s.photos| < 3 then |s.photos| else 3)
      && (forall i :: 0 <= i < |r| ==> r[i] == Placing(i + 1, ranked[i]))
      && (forall i, j :: 0 <= i < |r| <= j < |ranked| ==> r[i].entry.voteCount >= ranked[j].voteCount)
  {
    var ranked := SortDesc(RecentFirst(s), VoteCountOf);
    PodiumOfSortedIsTop(ranked, VoteCountOf);
  }

  /** The podium of a key-descending list beats everything below it. */
  lemma PodiumOfSortedIsTop<T>(xs: seq<T>, key: T -> int)
    requires SortedDesc(xs, key)
    ensures forall i, j :: 0 <= i < |Podium(xs)| <= j < |xs| ==> key(Podium(xs)[i].entry) >= key(xs[j])
  {
    var r := Podium(xs);
    forall i, j | 0 <= i < |r| <= j < |xs| ensures key(r[i].entry) >= key(xs[j]) {
      assert r[i].entry == xs[i];
    }
  }
}

=== FILE: seed.dfy ===
/** The database seed: create the admin account and the settings row, each
    only when it is missing, so running the seed again changes nothing. */
module Seed {
  import opened Wrappers
  import opened ContestStore

  /** The `ADMIN_EMAIL` and `ADMIN_PASSWORD` environment variables. */
  datatype SeedEnv = SeedEnv(adminEmail: Option<string>, adminPassword: Option<string>)

  /** `process.env.X || fallback`: an unset or empty variable falls back. */
  function EnvOr(v: Option<string>, fallback: string): (r: string)
    ensures v.Some? && v.value != "" ==> r == v.value
    ensures v.None? || v.value == "" ==> r == fallback
  {
    if v.Some? && v.value != "" then v.value else fallback
  }

  function AdminEmail(env: SeedEnv): string
  {
    EnvOr(env.adminEmail, "admin@sav.org.ar")
  }

  function AdminPassword(env: SeedEnv): string
  {
    EnvOr(env.adminPassword, "admin123")
  }

  /** `main()` of the seed script. `adminId` is the id the database assigns to a
      new account and `hash` the password hashing function. */
  function RunSeed(s: Store, env: SeedEnv, adminId: string, hash: string -> string): (s': Store)
    ensures AdminEmail(env) in s'.users
    ensures AdminEmail(env) in s.users ==> s'.users == s.users
    ensures AdminEmail(env) !in s.users ==>
      s'.users == s.users[AdminEmail(env) := Account(adminId, "Administrador", AdminEmail(env), hash(AdminPassword(env)), Admin)]
    ensures s.settings.Some? ==> s'.settings == s.settings
    ensures s.settings.None? ==> s'.settings == Some(Settings(Registration, 10485760, "image/jpeg,image/png,image/webp"))
    ensures s'.photos == s.photos && s'.votes == s.votes && s'.blobs == s.blobs && s'.resetTokens == s.resetTokens
  {
    var email := AdminEmail(env);
    var users :=
      if email in s.users then s.users
      else s.users[email := Account(adminId, "Administrador", email, hash(AdminPassword(env)), Admin)];
    var settings :=
      if s.settings.Some? then s.settings
      else Some(Settings(Registration, 10 * 1024 * 1024, "image/jpeg,image/png,image/webp"));
    s.(users := users, settings := settings)
  }

  /** Seeding twice is seeding once, whatever id and hash the second run would
      have used. */
  lemma SeedIdempotent(s: Store, env: SeedEnv, id1: string, id2: string, hash1: string -> string, hash2: string -> string)
    ensures RunSeed(RunSeed(s, env, id1, hash1), env, id2, hash2) == RunSeed(s, env, id1, hash1)
  {
  }

  /** With no environment variables the admin is admin@sav.org.ar with password
      admin123, and a fresh database starts in the registration phase. */
  lemma SeedDefaults(adminId: string, hash: string -> string)
    ensures var s := RunSeed(EmptyStore(), SeedEnv(None, None), adminId, hash);
      && "admin@sav.org.ar" in s.users
      && s.users["admin@sav.org.ar"] == Account(adminId, "Administrador", "admin@sav.org.ar", hash("admin123"), Admin)
      && s.settings == Some(Settings(Registration, 10485760, "image/jpeg,image/png,image/webp"))
  {
  }

  lemma SeedPreservesValid(s: Store, env: SeedEnv, adminId: string, hash: string -> string)
    requires Valid(s)
    ensures Valid(RunSeed(s, env, adminId, hash))
  {
  }
}

=== FILE: seqs.dfy ===
/** Sequence helpers shared by the routes: the `findFirst` scan over rows in
    storage order, and removal of one row. */
module Seqs {
  import opened Wrappers

  /** Index of the first element satisfying `p`, scanning in storage order. */
  function FindFirst<T>(xs: seq<T>, p: T -> bool): (r: Option<nat>)
    ensures r.None? ==> forall i :: 0 <= i < |xs| ==> !p(xs[i])
    ensures r.Some? ==> r.value < |xs| && p(xs[r.value])
    ensures r.Some? ==> forall i :: 0 <= i < r.value ==> !p(xs[i])
  {
    if |xs| == 0 then None
    else if p(xs[0]) then Some(0)
    else match FindFirst(xs[1..], p)
      case None => None
      case Some(i) => Some(i + 1)
  }

  /** `xs` without the element at index `i`. */
  function RemoveAt<T>(xs: seq<T>, i: nat): (r: seq<T>)
    requires i < |xs|
    ensures |r| == |xs| - 1
    ensures forall k :: 0 <= k < i ==> r[k] == xs[k]
    ensures forall k :: i <= k < |r| ==> r[k] == xs[k + 1]
  {
    xs[..i] + xs[i + 1..]
  }
}

=== FILE: settings_route.dfy ===
/** The phase store: `GET`/`POST /api/admin/settings`. Only an admin may read
    or write; a write accepts any of the three phase names from any current
    phase and upserts the single settings row. */
module SettingsRoute {
  import opened Wrappers
  import opened ContestStore

  function PhaseName(p: Phase): string
  {
    match p
    case Registration => "REGISTRATION"
    case Judging => "JUDGING"
    case Results => "RESULTS"
  }

  /** `['REGISTRATION', 'JUDGING', 'RESULTS'].includes(phase)`, returning the
      phase a valid name denotes. */
  function ParsePhase(name: string): (r: Option<Phase>)
    ensures r.Some? <==> name in ["REGISTRATION", "JUDGING", "RESULTS"]
  {
    if name == "REGISTRATION" then Some(Registration)
    else if name == "JUDGING" then Some(Judging)
    else if name == "RESULTS" then Some(Results)
    else None
  }

  /** Phase names and parsing are inverse to each other. */
  lemma PhaseNamesRoundTrip(p: Phase, name: string)
    ensures ParsePhase(PhaseName(p)) == Some(p)
    ensures ParsePhase(name) == Some(p) ==> PhaseName(p) == name
  {
  }

  /** GET /api/admin/settings. */
  function GetSettings(s: Store, caller: Option<Session>): (o: Outcome)
    ensures o.store == s && o.effects == []
    ensures HasRole(caller, Admin) ==> o.response == Response(200, SettingsRow(s.settings))
    ensures !HasRole(caller, Admin) ==> o.response == Reject(Unauthorized)
  {
    if !HasRole(caller, Admin) then Outcome(s, Reject(Unauthorized), [])
    else Outcome(s, Response(200, SettingsRow(s.settings)), [])
  }

  /** POST /api/admin/settings. The body's `phase` is `None` when it is absent
      or not a string. `schemaDefault` stands for the column defaults the
      database fills in when the row is created here. */
  function SetPhase(s: Store, caller: Option<Session>, body: Body<Option<string>>, schemaDefault: Settings): (o: Outcome)
    ensures o.effects == []
    ensures o.response.status != 200 ==> o.store == s
    ensures !HasRole(caller, Admin) ==> o.response == Reject(Unauthorized)
    ensures HasRole(caller, Admin) && body.Unparsable? ==> o.response == Reject(ServerError)
    ensures HasRole(caller, Admin) && body.Parsed? && (body.value.None? || ParsePhase(body.value.value).None?)
      ==> o.response == Reject(InvalidPhase)
    ensures o.response.status == 200 <==>
      HasRole(caller, Admin) && body.Parsed? && body.value.Some? && ParsePhase(body.value.value).Some?
    ensures o.response.status == 200 ==>
      && o.store.settings.Some?
      && PhaseName(o.store.settings.value.phase) == body.value.value
      && o.store == s.(settings := o.store.settings)
      && o.response.reply == SettingsRow(o.store.settings)
      && (s.settings.Some? ==> o.store.settings.value == s.settings.value.(phase := o.store.settings.value.phase))
      && (s.settings.None? ==> o.store.settings.value == schemaDefault.(phase := o.store.settings.value.phase))
  {
    if !HasRole(caller, Admin) then Outcome(s, Reject(Unauthorized), [])
    else if body.Unparsable? then Outcome(s, Reject(ServerError), [])
    else if body.value.None? then Outcome(s, Reject(InvalidPhase), [])
    else match ParsePhase(body.value.value)
      case None => Outcome(s, Reject(InvalidPhase), [])
      case Some(phase) =>
        var row := if s.settings.Some? then s.settings.value.(phase := phase) else schemaDefault.(phase := phase);
        Outcome(s.(settings := Some(row)), Response(200, SettingsRow(Some(row))), [])
  }

  /** No transition order is enforced: from any store, an admin can move the
      contest to any phase, and the gates of the other routes then follow it. */
  lemma AnyPhaseReachable(s: Store, adminId: string, target: Phase, schemaDefault: Settings)
    ensures var o := SetPhase(s, Some(Session(adminId, Admin)), Parsed(Some(PhaseName(target))), schemaDefault);
      && o.response.status == 200
      && o.store.settings.value.phase == target
      && (forall p :: PhaseAllows(o.store.settings, p) <==> p == target)
  {
    PhaseNamesRoundTrip(target, PhaseName(target));
  }

  /** Repeating a successful request changes nothing further. */
  lemma SetPhaseIdempotent(s: Store, caller: Option<Session>, body: Body<Option<string>>, schemaDefault: Settings)
    ensures var s1 := SetPhase(s, caller, body, schemaDefault).store;
      SetPhase(s1, caller, body, schemaDefault).store == s1
  {
  }

  /** Setting the phase touches only the settings row, so the invariant survives. */
  lemma SetPhasePreservesValid(s: Store, caller: Option<Session>, body: Body<Option<string>>, schemaDefault: Settings)
    requires Valid(s)
    ensures Valid(SetPhase(s, caller, body, schemaDefault).store)
  {
  }
}

=== FILE: text.dfy ===
/** String operations the routes and dashboards borrow from JavaScript:
    `String.prototype.trim` and an ASCII `toLowerCase`. */
module Text {

  /** The WhiteSpace and LineTerminator code points that `trim` strips. */
  predicate IsJsSpace(c: char)
  {
    var n := c as int;
    || n == 0x09 || n == 0x0A || n == 0x0B || n == 0x0C || n == 0x0D || n == 0x20
    || n == 0xA0 || n == 0x1680 || (0x2000 <= n <= 0x200A) || n == 0x2028 || n == 0x2029
    || n == 0x202F || n == 0x205F || n == 0x3000 || n == 0xFEFF
  }

  predicate IsBlank(s: string)
  {
    forall i :: 0 <= i < |s| ==> IsJsSpace(s[i])
  }

  function TrimStart(s: string): (r: string)
    ensures |r| <= |s| && r == s[|s| - |r|..]
    ensures forall i :: 0 <= i < |s| - |r| ==> IsJsSpace(s[i])
    ensures |r| > 0 ==> !IsJsSpace(r[0])
  {
    if |s| > 0 && IsJsSpace(s[0]) then
      var r := TrimStart(s[1..]);
      assert forall i :: 1 <= i < |s| ==> s[i] == s[1..][i - 1];
      r
    else s
  }

  function TrimEnd(s: string): (r: string)
    ensures |r| <= |s| && r == s[..|r|]
    ensures forall i :: |r| <= i < |s| ==> IsJsSpace(s[i])
    ensures |r| > 0 ==> !IsJsSpace(r[|r| - 1])
  {
    if |s| > 0 && IsJsSpace(s[|s| - 1]) then
      var r := TrimEnd(s[..|s| - 1]);
      assert forall i :: 0 <= i < |s| - 1 ==> s[i] == s[..|s| - 1][i];
      r
    else s
  }

  /** A slice of `s` with only white space before and after it. */
  lemma BlankAround(s: string, i: nat, j: nat)
    requires i <= j <= |s|
    requires forall k :: 0 <= k < i ==> IsJsSpace(s[k])
    requires forall k :: j <= k < |s| ==> IsJsSpace(s[k])
    ensures IsBlank(s[..i]) && IsBlank(s[j..])
  {
    var pre := s[..i];
    var post := s[j..];
    forall k | 0 <= k < |pre| ensures IsJsSpace(pre[k]) {
      assert pre[k] == s[k];
    }
    forall k | 0 <= k < |post| ensures IsJsSpace(post[k]) {
      assert post[k] == s[j + k];
    }
  }

  /** `s.trim()`: `s` without its leading and trailing white space. The result
      is empty exactly when `s` is blank. */
  function Trim(s: string): (r: string)
    ensures |r| <= |s|
    ensures r == "" <==> IsBlank(s)
    ensures |r| > 0 ==> !IsJsSpace(r[0]) && !IsJsSpace(r[|r| - 1])
    ensures exists i :: 0 <= i <= |s| - |r| && r == s[i..i + |r|] && IsBlank(s[..i]) && IsBlank(s[i + |r|..])
  {
    var front := TrimStart(s);
    var r := TrimEnd(front);
    assert r == "" ==> front == "";
    var i := |s| - |front|;
    assert r == s[i..i + |r|];
    assert forall k :: i + |r| <= k < |s| ==> IsJsSpace(s[k]) by {
      forall k | i + |r| <= k < |s| ensures IsJsSpace(s[k]) {
        assert s[k] == front[k - i];
      }
    }
    BlankAround(s, i, i + |r|);
    r
  }

  /** Trimming is the identity on an already trimmed string. */
  lemma {:induction false} TrimIdempotent(s: string)
    ensures Trim(Trim(s)) == Trim(s)
  {
    var t := Trim(s);
    assert TrimStart(t) == t;
    assert TrimEnd(t) == t;
  }

  function LowerChar(c: char): (d: char)
  {
    if 'A' <= c <= 'Z' then (c as int + 32) as char else c
  }

  /** `toLowerCase` on the ASCII letters. */
  function ToLowerAscii(s: string): (r: string)
    ensures |r| == |s|
    ensures forall i :: 0 <= i < |s| ==> r[i] == LowerChar(s[i])
    ensures forall i :: 0 <= i < |r| ==> !('A' <= r[i] <= 'Z')
  {
    seq(|s|, i requires 0 <= i < |s| => LowerChar(s[i]))
  }
}

=== FILE: vote_routes.dfy ===
/** The vote ledger: `POST /api/votes` casts the judge's single vote and
    `DELETE /api/votes` retracts it. Each success changes the vote table and the
    referenced photo's counter in one transaction; a failure inside the
    transaction rolls both back. */
module VoteRoutes {
  import opened Wrappers
  import opened Seqs
  import opened ContestStore

  predicate HasVote(votes: seq<Vote>, judgeId: string)
  {
    exists i :: 0 <= i < |votes| && votes[i].judgeId == judgeId
  }

  /** `vote.findFirst({where: {judgeId}})`. */
  function JudgeVote(votes: seq<Vote>, judgeId: string): (r: Option<nat>)
    ensures r.None? <==> !HasVote(votes, judgeId)
    ensures r.Some? ==> r.value < |votes| && votes[r.value].judgeId == judgeId
    ensures r.Some? ==> forall k :: 0 <= k < r.value ==> votes[k].judgeId != judgeId
  {
    FindFirst(votes, (v: Vote) => v.judgeId == judgeId)
  }

  /** POST /api/votes. The body's `photoId` is `None` when the JSON carries no
      usable id, in which case the vote insert fails inside the transaction. */
  function CastVote(s: Store, caller: Option<Session>, body: Body<Option<string>>): (o: Outcome)
    ensures o.effects == []
    ensures o.response.status != 200 ==> o.store == s
    ensures !HasRole(caller, Judge) ==> o.response == Reject(Unauthorized)
    ensures HasRole(caller, Judge) && !PhaseAllows(s.settings, Judging) ==> o.response == Reject(PhaseClosed)
    ensures HasRole(caller, Judge) && PhaseAllows(s.settings, Judging) && body.Unparsable? ==> o.response == Reject(ServerError)
    ensures HasRole(caller, Judge) && PhaseAllows(s.settings, Judging) && body.Parsed? && HasVote(s.votes, caller.value.userId)
      ==> o.response == Reject(AlreadyVoted)
    ensures HasRole(caller, Judge) && PhaseAllows(s.settings, Judging) && body.Parsed? && !HasVote(s.votes, caller.value.userId)
      && (body.value.None? || body.value.value !in PhotoIds(s.photos))
      ==> o.response == Reject(ServerError)
    ensures o.response.status == 200 <==>
      && HasRole(caller, Judge) && PhaseAllows(s.settings, Judging)
      && body.Parsed? && body.value.Some? && body.value.value in PhotoIds(s.photos)
      && !HasVote(s.votes, caller.value.userId)
    ensures o.response.status == 200 ==>
      o.response.reply == Done &&
      o.store == s.(votes := s.votes + [Vote(caller.value.userId, body.value.value)],
                    photos := AdjustCount(s.photos, body.value.value, 1))
  {
    if !HasRole(caller, Judge) then Outcome(s, Reject(Unauthorized), [])
    else if !PhaseAllows(s.settings, Judging) then Outcome(s, Reject(PhaseClosed), [])
    else if body.Unparsable? then Outcome(s, Reject(ServerError), [])
    else if JudgeVote(s.votes, caller.value.userId).Some? then Outcome(s, Reject(AlreadyVoted), [])
    else if body.value.None? || body.value.value !in PhotoIds(s.photos) then
      // the insert or the increment throws and the transaction rolls back
      Outcome(s, Reject(ServerError), [])
    else
      var photoId := body.value.value;
      var s' := s.(votes := s.votes + [Vote(caller.value.userId, photoId)],
                   photos := AdjustCount(s.photos, photoId, 1));
      Outcome(s', Response(200, Done), [])
  }

  /** DELETE /api/votes. */
  function RetractVote(s: Store, caller: Option<Session>): (o: Outcome)
    ensures o.effects == []
    ensures o.response.status != 200 ==> o.store == s
    ensures !HasRole(caller, Judge) ==> o.response == Reject(Unauthorized)
    ensures HasRole(caller, Judge) && !PhaseAllows(s.settings, Judging) ==> o.response == Reject(PhaseClosed)
    ensures HasRole(caller, Judge) && PhaseAllows(s.settings, Judging) && !HasVote(s.votes, caller.value.userId)
      ==> o.response == Reject(NoVoteToRemove)
    ensures o.response.status == 200 <==>
      && HasRole(caller, Judge) && PhaseAllows(s.settings, Judging)
      && HasVote(s.votes, caller.value.userId)
      && s.votes[JudgeVote(s.votes, caller.value.userId).value].photoId in PhotoIds(s.photos)
    ensures o.response.status == 200 ==>
      var i := JudgeVote(s.votes, caller.value.userId).value;
      && o.response.reply == Done
      && o.store == s.(votes := RemoveAt(s.votes, i), photos := AdjustCount(s.photos, s.votes[i].photoId, -1))
  {
    if !HasRole(caller, Judge) then Outcome(s, Reject(Unauthorized), [])
    else if !PhaseAllows(s.settings, Judging) then Outcome(s, Reject(PhaseClosed), [])
    else match JudgeVote(s.votes, caller.value.userId)
      case None => Outcome(s, Reject(NoVoteToRemove), [])
      case Some(i) =>
        var photoId := s.votes[i].photoId;
        if photoId !in PhotoIds(s.photos) then
          // the decrement finds no row and the transaction rolls back
          Outcome(s, Reject(ServerError), [])
        else
          Outcome(s.(votes := RemoveAt(s.votes, i), photos := AdjustCount(s.photos, photoId, -1)), Response(200, Done), [])
  }

  /** Adjusting a counter leaves ids and owners where they were. */
  lemma AdjustKeepsRows(photos: seq<Photo>, photoId: string, delta: int)
    ensures PhotoIds(AdjustCount(photos, photoId, delta)) == PhotoIds(photos)
    ensures DistinctPhotoIds(photos) ==> DistinctPhotoIds(AdjustCount(photos, photoId, delta))
    ensures OnePhotoPerContestant(photos) ==> OnePhotoPerContestant(AdjustCount(photos, photoId, delta))
  {
    var r := AdjustCount(photos, photoId, delta);
    forall x | x in PhotoIds(r) ensures x in PhotoIds(photos) {
      var p :| p in r && p.id == x;
      var i :| 0 <= i < |r| && r[i] == p;
      assert photos[i].id == x;
    }
    forall x | x in PhotoIds(photos) ensures x in PhotoIds(r) {
      var p :| p in photos && p.id == x;
      var i :| 0 <= i < |photos| && photos[i] == p;
      assert r[i].id == x;
    }
  }

  /** Casting a vote keeps the store invariant: the new vote is the judge's
      only one and the counter that grows is the one its photo's votes grew. */
  lemma CastPreservesValid(s: Store, caller: Option<Session>, body: Body<Option<string>>)
    requires Valid(s)
    ensures Valid(CastVote(s, caller, body).store)
  {
    var o := CastVote(s, caller, body);
    if o.response.status == 200 {
      var judge := caller.value.userId;
      var photoId := body.value.value;
      var v := Vote(judge, photoId);
      AdjustKeepsRows(s.photos, photoId, 1);
      forall i | 0 <= i < |o.store.photos|
        ensures o.store.photos[i].voteCount == CountVotes(o.store.votes, o.store.photos[i].id)
      {
        CountAppend(s.votes, v, s.photos[i].id);
      }
      forall i, j | 0 <= i < j < |o.store.votes|
        ensures o.store.votes[i].judgeId != o.store.votes[j].judgeId
      {
        if j == |s.votes| {
          assert o.store.votes[i] == s.votes[i];
        }
      }
    }
  }

  /** While the invariant holds, a judge with a vote in the judging phase (or
      with no settings row) can always retract it. */
  lemma RetractSucceedsWhenValid(s: Store, caller: Option<Session>)
    requires Valid(s) && HasRole(caller, Judge) && PhaseAllows(s.settings, Judging)
    requires HasVote(s.votes, caller.value.userId)
    ensures RetractVote(s, caller).response == Response(200, Done)
  {
    var i := JudgeVote(s.votes, caller.value.userId).value;
    assert s.votes[i] in s.votes;
  }

  /** Retracting a vote keeps the store invariant. */
  lemma RetractPreservesValid(s: Store, caller: Option<Session>)
    requires Valid(s)
    ensures Valid(RetractVote(s, caller).store)
  {
    var o := RetractVote(s, caller);
    if o.response.status == 200 {
      var i := JudgeVote(s.votes, caller.value.userId).value;
      var photoId := s.votes[i].photoId;
      AdjustKeepsRows(s.photos, photoId, -1);
      forall k | 0 <= k < |o.store.photos|
        ensures o.store.photos[k].voteCount == CountVotes(o.store.votes, o.store.photos[k].id)
      {
        CountRemoveAt(s.votes, i, s.photos[k].id);
      }
      forall v | v in o.store.votes ensures v.photoId in PhotoIds(o.store.photos) {
        var k :| 0 <= k < |o.store.votes| && o.store.votes[k] == v;
        assert v == s.votes[if k < i then k else k + 1];
      }
      forall a, b | 0 <= a < b < |o.store.votes|
        ensures o.store.votes[a].judgeId != o.store.votes[b].judgeId
      {
        var a' := if a < i then a else a + 1;
        var b' := if b < i then b else b + 1;
        assert o.store.votes[a] == s.votes[a'] && o.store.votes[b] == s.votes[b'];
      }
    }
  }

  /** While the invariant holds, the counter a retract decrements is at least
      one, so no photo's counter goes below zero. */
  lemma RetractKeepsCountsNonNegative(s: Store, caller: Option<Session>)
    requires Valid(s)
    requires RetractVote(s, caller).response.status == 200
    ensures var i := JudgeVote(s.votes, caller.value.userId).value;
      forall k :: 0 <= k < |s.photos| && s.photos[k].id == s.votes[i].photoId ==> s.photos[k].voteCount >= 1
    ensures forall k :: 0 <= k < |RetractVote(s, caller).store.photos| ==> RetractVote(s, caller).store.photos[k].voteCount >= 0
  {
    var i := JudgeVote(s.votes, caller.value.userId).value;
    CountPositiveWhenReferenced(s.votes, i);
  }

  /** A judge's cast followed by their retract restores the store exactly. */
  lemma CastThenRetractRestores(s: Store, caller: Option<Session>, photoId: string)
    requires CastVote(s, caller, Parsed(Some(photoId))).response.status == 200
    ensures RetractVote(CastVote(s, caller, Parsed(Some(photoId))).store, caller) == Outcome(s, Response(200, Done), [])
  {
    var s1 := CastVote(s, caller, Parsed(Some(photoId))).store;
    var judge := caller.value.userId;
    assert s1.votes[|s.votes|].judgeId == judge;
    var i := JudgeVote(s1.votes, judge).value;
    assert i == |s.votes|;
    assert RemoveAt(s1.votes, i) == s.votes;
    AdjustKeepsRows(s.photos, photoId, 1);
    assert AdjustCount(s1.photos, photoId, -1) == s.photos;
  }

  /** A judge who already holds a vote cannot cast a second one, whatever photo
      the request names. */
  lemma NoSecondVote(s: Store, caller: Option<Session>, photoId: string, other: Option<string>)
    requires CastVote(s, caller, Parsed(Some(photoId))).response.status == 200
    ensures CastVote(CastVote(s, caller, Parsed(Some(photoId))).store, caller, Parsed(other)).response == Reject(AlreadyVoted)
  {
    var s1 := CastVote(s, caller, Parsed(Some(photoId))).store;
    assert s1.votes[|s.votes|].judgeId == caller.value.userId;
  }
}

=== FILE: wrappers.dfy ===
/** Optional values: a missing settings row, an absent header, a row not found. */
module Wrappers {

  datatype Option<+T> = None | Some(value: T)
}
